=== FILE: README.md ===
# zania-qa-bot, modelled in Dafny

zania-qa-bot is a document question-answering service. A client posts a JSON array of
questions and a PDF or JSON document to `/v1/qa`. The service then:

- validates both uploads;
- extracts the document's text and splits it into chunks;
- stores the chunks, under content-derived ids, in a vector-store collection named
  after the document's hash;
- answers each question by retrieval-augmented generation: retrieve the top-k chunks,
  lay them out as a context block, ask a chat model, and trim its reply.

This project models the deterministic decision logic under that glue, as immutable
datatypes and pure functions:

| module | file | models |
|---|---|---|
| `Wrappers` | wrappers.dfy | `Option`, `Result`, and a raised exception as `Exc(typeName, message)` |
| `Text` | text.dfy | Python's `str.strip`, `"sep".join`, ASCII lower-casing, `str.endswith`, decimal rendering of ints |
| `Utf8` | utf8.dfy | UTF-8 encoding of a text (`str.encode("utf-8")`) and a decoder that inverts it |
| `Fingerprint` | fingerprint.dfy | `sha256_bytes`, `sha256_text`, and slicing a digest |
| `JsonValue` | json.dfy | the decoded JSON value and the parser as a parameter |
| `Questions` | questions.dfy | `parse_questions_json` |
| `Documents` | documents.dfy | documents with insertion-ordered metadata dicts, and `sorted(metadata.items())` |
| `Ingestion` | ingestion.dfy | `load_pdf_bytes` over extracted page texts, and `load_json_bytes` |
| `Partitions` | partitions.dfy | `_chunk_ids`, and `upsert_documents` as a conditional write into a store of collections |
| `Answering` | answering.dfy | the prompt, `answer_question` with its retry decorator, and the per-question loop of the handler |
| `Pipeline` | pipeline.dfy | `_check_size` and the `qa` handler: check order, loader choice, collection name, store effect, results |

Everything foreign is a parameter, so every property holds whatever these behave like:

- SHA-256 (`Hasher`);
- UTF-8 decoding followed by `json.loads` (`JsonParser`), and `json.dumps` (`JsonDumper`);
- `PdfReader` with `extract_text` (`PdfReader`);
- the text splitter (`Splitter`);
- Python's `repr` of metadata (`ItemsRenderer`, `MetaRenderer`);
- the vector store's own exceptions (`storeFault`);
- building the chat-model client, building the retriever and running the similarity search, and invoking the chat model (`Backend`).

Each of these three steps is indexed by an `Attempt(slot, try)`: the
question's position in the request and the retry number. A flaky service that fails
and then recovers, or fails for one question only, is therefore one particular
`Backend`.

The vector store is a map from collection name to the entries written into that
collection. The request handler `Pipeline.Qa` takes the store before the request and
returns the response together with the store after it. The file lock around
count-then-write makes that step atomic; `Partitions.Upsert` is that atomic step.
`Partitions.UnlockedInterleavingBothWrite` shows that without the lock two requests
for the same new document would both write.

The settings defaults are `Pipeline.Defaults`: top-k 4, at most 50 questions, and
uploads of at most 15,000,000 bytes. The handler is modelled as it appears in
build/lib/app/main.py, the build copy of the application module.

The retry decorator stops after 3 attempts and sleeps only between attempts: 1 s,
then 2 s, 3 s in all (`Answering.WaitBounded`).

## Model

| member | source | states |
|---|---|---|
| Fingerprint.Sha256Bytes | app/utils.py:6-7 | the digest of the bytes is 64 lower-case hexadecimal characters |
| Fingerprint.Sha256Text | app/utils.py:10-11 | the digest of a text is the digest of its UTF-8 bytes, 64 lower-case hexadecimal characters |
| Fingerprint.TextCollisionIsByteCollision | app/utils.py:10-11 | two different texts with equal `sha256_text` have different UTF-8 bytes with equal `sha256_bytes`, so hashing text adds no collisions |
| Utf8.Encode | app/utils.py:11 | the encoding is at least as long as the text and at most four times as long |
| Utf8.DecodeEncode | app/utils.py:11 | decoding the UTF-8 encoding of any text gives the text back |
| Utf8.EncodeInjective | app/utils.py:11 | different texts have different UTF-8 encodings |
| Fingerprint.Truncate | app/rag.py:65 | a slice `s[:n]` has length `min(n, len(s))` and is a prefix of `s` |
| Fingerprint.TruncatedDigest | app/rag.py:65 | the first `n <= 64` characters of a digest are `n` lower-case hexadecimal characters, each equal to the digest's |
| Text.Strip | app/utils.py:25 | the stripped text has no surrounding whitespace, is no longer than the input, and is empty exactly when the input is all whitespace |
| Text.StripDecomposes | app/rag.py:104 | the input is the leading whitespace, then the stripped text, then the trailing whitespace |
| Text.StripUnique | app/utils.py:25 | whitespace around a text that does not start or end with whitespace strips off to exactly that text |
| Text.StripIdempotent | app/utils.py:25 | stripping twice is stripping once |
| Text.JoinPart | app/rag.py:100 | each part of a join appears at its offset in the joined text |
| Text.JoinSeparator | app/rag.py:100 | the separator sits right before every part but the first |
| Text.Lower | build/lib/app/main.py:56 | lower-casing keeps the length, leaves no upper-case ASCII letter, and changes only the upper-case ASCII letters |
| Text.Decimal | build/lib/app/main.py:27 | the decimal rendering of an int is a non-empty run of digits with no leading zero |
| Text.DecimalRoundTrip | build/lib/app/main.py:27 | the decimal rendering of an int reads back as that int |
| Questions.ParseQuestions | app/utils.py:20-29 | a parser error propagates; a value that is not a list of strings is a `ValueError`; otherwise the result is the cleaned list when it is non-empty and a `ValueError` when every entry is blank; a result is 1 to n non-empty stripped questions |
| Questions.Clean | app/utils.py:25 | every kept question is non-empty and stripped, there are at most as many as given, and none is kept exactly when all are blank |
| Questions.CleanSingle | app/utils.py:25 | one entry is kept, stripped, exactly when its stripped text is non-empty |
| Questions.CleanConcat | app/utils.py:25 | cleaning works entry by entry and keeps the original order |
| Questions.CleanExample | tests/test_utils.py:4-7 | `["  q1  ", "q2", "   "]` cleans to `["q1", "q2"]` |
| Questions.ObjectRejected | tests/test_utils.py:9-11 | a JSON object is rejected as not being an array of strings |
| Questions.BlankOnlyRejected | tests/test_utils.py:13-15 | `["   "]` is rejected as having no question |
| Documents.SortItems | app/rag.py:64 | sorting the metadata items permutes them into strictly increasing key order |
| Documents.SortItemsCanonical | app/rag.py:64 | metadata that denote the same dict sort to the same item list, whatever their insertion order |
| Documents.Lookup | app/ingestion.py:20 | looking a key up finds a value exactly when the dict has the key, and then finds the dict's value |
| Ingestion.PdfTags | app/ingestion.py:20 | a PDF document's tags read back as its page number and `source = "pdf"` |
| Ingestion.LoadPdfPages | app/ingestion.py:13-22 | the loop emits at most one document per page; its other properties are the lemmas below |
| Ingestion.LoadPdfPagesSound | app/ingestion.py:13-22 | every emitted document is the stripped text of the page its tag names, and that page has text |
| Ingestion.LoadPdfPagesOrdered | app/ingestion.py:13-22 | page numbers strictly increase along the output |
| Ingestion.PdfDocumentsShape | app/ingestion.py:14-21 | every emitted document is non-empty, stripped, and tagged `source = "pdf"` |
| Ingestion.PdfPageKept | app/ingestion.py:13-22 | a page whose stripped text is non-empty has its document, tagged with its 1-based number, in the output |
| Ingestion.PdfPageCoverage | app/ingestion.py:13-22 | page `i` has a document tagged `i + 1` exactly when its stripped text is non-empty, with `None` counting as empty |
| Ingestion.BlankMiddlePage | app/ingestion.py:13-22 | text on pages 1 and 3 around a blank page 2 gives two documents, tagged 1 and 3 |
| Ingestion.LoadPdfBytes | app/ingestion.py:9-23 | the reader's exception propagates; otherwise at most one document per page |
| Ingestion.LoadJsonBytes | app/ingestion.py:26-29 | a decoding error propagates; otherwise exactly one document holding the dumped value, whose metadata is exactly `{"source": "json"}`, so it carries no "page" key |
| Partitions.ChunkId | app/rag.py:64-65 | a chunk id is 32 lower-case hexadecimal characters |
| Partitions.ChunkIdIsDigestPrefix | app/rag.py:64-65 | a chunk id is the first 32 characters of the digest of the chunk's text followed by its rendered sorted metadata |
| Partitions.ChunkIdOrderInsensitive | app/rag.py:64-65 | chunks with equal text and equal metadata dicts get equal ids, whatever the metadata's insertion order |
| Partitions.ChunkIds | app/rag.py:61-66 | one id per chunk, in chunk order |
| Partitions.Entries | app/rag.py:78 | the written entries pair each chunk with its id, in order |
| Partitions.Upsert | app/rag.py:73-79 | an empty collection ends up holding exactly the entries; a non-empty one leaves the store unchanged; no other collection changes |
| Partitions.UpsertDocuments | app/rag.py:69-81 | the chunks are written with their ids exactly when the collection was empty; otherwise nothing changes; other collections never change |
| Partitions.UpsertIdempotent | app/rag.py:73-79 | ingesting the same entries twice leaves the store as ingesting them once |
| Partitions.FirstWriteWins | app/rag.py:76-78 | once a collection holds anything, a later ingestion into it changes nothing |
| Partitions.UpsertCommutes | app/rag.py:69-81 | ingestions into different collections commute |
| Partitions.ReadCount | app/rag.py:76 | the count read is 0 exactly when the collection holds nothing |
| Partitions.WriteIfEmpty | app/rag.py:77-78 | with a count of 0 read, the entries are added to the collection; with any other count the store is left alone; no other collection changes |
| Partitions.UnlockedInterleavingBothWrite | app/rag.py:73-79 | without the lock, request A opens and counts, request B opens and counts on the store A left, and both read 0, so both write; once A has written, a fresh open and count reads non-zero, so under the lock B writes nothing |
| Answering.SystemQuotesSentinel | app/rag.py:15-18 | the system prompt contains `Not found in document.` between double quotes |
| Answering.FormatDoc | app/rag.py:100 | a formatted chunk starts with `[meta=`, ends with the chunk's text, and is the rendered metadata, `] ` and the text long |
| Answering.Context | app/rag.py:100 | the context is empty exactly when nothing was retrieved, and is as long as the formatted chunks and the separators between them |
| Answering.ContextLayout | app/rag.py:100 | every retrieved chunk appears formatted in the context at its offset, in retrieval order |
| Answering.ContextSeparated | app/rag.py:100 | consecutive chunks are separated by a blank line |
| Answering.ContextNextOffset | app/rag.py:100 | each chunk starts right after the previous chunk and the separator |
| Answering.Prompt | app/rag.py:20-25 | the prompt is the system message followed by one human message |
| Answering.PromptReadsBack | app/rag.py:23 | the human message is `Context:`, a newline, the context, a blank line, `Question: ` and the question |
| Answering.AnswerOnce | app/rag.py:91-104 | a successful attempt's answer has no surrounding whitespace; which outcome an attempt has is stated by Answering.AnswerOnceOutcome |
| Answering.AnswerOnceOutcome | app/rag.py:91-104 | an attempt fails with the exception from building the chat-model client, else with the retriever's, else with the chat model's; otherwise its answer is the reply without its surrounding whitespace |
| Answering.Retry | app/rag.py:84-89 | the retry loop makes 1 to 3 tries, returns the outcome of its last try, and every earlier try failed; it gives up only after the third |
| Answering.AnswerQuestion | app/rag.py:84-104 | a question is answered exactly when one of its three tries succeeds, with a stripped answer; otherwise the third try's exception is raised |
| Answering.FirstSuccessWins | app/rag.py:84-89 | the answer is that of the first successful try |
| Answering.TransientFailureRecovered | app/rag.py:84-89 | a call that fails once and then succeeds gives the second reply |
| Answering.Backoff | app/rag.py:87 | each pause is between 1 and 8 seconds |
| Answering.WaitBounded | app/rag.py:84-89 | the pause after the first failed try is 1 second and after the second 2 seconds; the pauses total at most 3 seconds, and exactly 3 when all three tries run |
| Answering.AnswerItem | build/lib/app/main.py:90-95 | the item repeats the question; its answer is the question's answer, or `Error answering question: ` followed by the exception's class name |
| Answering.AnswerAll | build/lib/app/main.py:89-95 | one item per question, in question order, each the question's answer or its error notice |
| Answering.AnswerIsolation | build/lib/app/main.py:89-95 | a question's item depends only on what the services do for that question |
| Pipeline.SizeDetailNamesLimit | build/lib/app/main.py:27 | a size rejection's detail names the upload and reads back the limit |
| Pipeline.CheckSize | build/lib/app/main.py:23-28 | 413 exactly when the upload is strictly larger than the limit, with the detail naming the upload and the limit |
| Pipeline.KindOf | build/lib/app/main.py:56-65 | the PDF loader exactly when the lower-cased name ends in `.pdf`; the JSON loader exactly when it ends in `.json` and not `.pdf`; a missing name selects none |
| Pipeline.KindIgnoresCase | build/lib/app/main.py:56 | names equal up to case select the same loader |
| Pipeline.UpperCasePdfAccepted | build/lib/app/main.py:56-58 | `Report.PDF` selects the PDF loader |
| Pipeline.MixedCaseJsonAccepted | build/lib/app/main.py:56-61 | `data.Json` selects the JSON loader |
| Pipeline.TextFileUnsupported | build/lib/app/main.py:64-65 | `doc.txt` selects no loader |
| Pipeline.CollectionName | build/lib/app/main.py:74-75 | the collection name is `doc_` and the first 16 hexadecimal characters of the document bytes' digest |
| Pipeline.LoadDocument | build/lib/app/main.py:56-65 | an unsupported name is a 400; a JSON decoding error is a 400 with the error's message; the PDF reader's exception is not caught; a JSON document gives one document |
| Pipeline.AcceptQuestions | build/lib/app/main.py:44-53 | a parse error is a 400 with its message; more than the maximum number of questions is a 400; otherwise 1 to the maximum questions are accepted |
| Pipeline.Serve | build/lib/app/main.py:56-97 | no text or no chunks is a 400 that leaves the store alone; a loaded document with chunks is answered, one item per question, unless the vector store raises, and then the request fails with that exception; an answered request upserted the chunks into the document's collection, which then holds entries, and answers from that collection |
| Pipeline.Qa | build/lib/app/main.py:31-97 | 413 exactly when an upload is too large; a request that passes every check and meets no store exception is answered; only an answered request changes the store, and only the document's collection; the answers line up one per accepted question |
| Pipeline.SizeCheckedFirst | build/lib/app/main.py:40-47 | the questions' size is checked before the document's, both before anything else, and the limit itself is accepted |
| Pipeline.QaOutcomes | build/lib/app/main.py:40-72 | every rejection is a 400 or a 413; an exception escapes only after the questions and the document kind were accepted |
| Pipeline.QuestionsCheckedBeforeDocument | build/lib/app/main.py:44-65 | a bad question list decides the response whatever the document |
| Pipeline.QuestionLimitBoundary | build/lib/app/main.py:49-53 | exactly the maximum number of questions is served; one more is a 400 |
| Pipeline.WrongDocTypeRejected | tests/test_api_integration.py:126-137 | `doc.txt` with one valid question is a 400 with the unsupported-type detail |
| Pipeline.UnreadablePdfCrashes | build/lib/app/main.py:57-58 | a PDF the reader cannot open fails the request with the reader's exception and leaves the store alone |
| Pipeline.RepeatRequestKeepsStore | build/lib/app/main.py:74-87 | once a document's collection holds chunks, as an answered request leaves it, any request with the same document bytes leaves the store unchanged |

## Left out

- The request-id middleware, the log lines in `qa` and the `/health` endpoint: logging and I/O with no decision logic.
- Reading the uploads (`read_upload_bytes`): async I/O; an upload is its file name and its bytes.
- Loading settings from the environment and `.env`: the settings are a `Pipeline.Settings` value, with the defaults as a constant.
- UTF-8 decoding of an upload, `json.loads` and `json.dumps`: foreign code, passed in as functions. Their exceptions are `Exc` values.
- PDF parsing and `extract_text`: foreign code; a PDF arrives as its reader's outcome.
- The text splitter (`chunk_docs`): foreign code, a parameter; no size or overlap property is claimed.
- SHA-256 itself: any function to 64 lower-case hexadecimal characters.
- Python's `repr` of a dict and of a list of pairs: parameters of the id computation and of the context layout.
- Embeddings, Chroma's storage and persistence, and the OpenAI client and its configuration: foreign and networked. A collection is its entries in write order.
- Whether the retriever is called through `invoke` or `get_relevant_documents`: both are the same `retrieve` call.
- The file lock's mechanics and concurrent requests: the locked count-then-write is one atomic step.
- Pipeline.Serve: an exception from the vector store (`storeFault`) is modelled as raised before anything is written; a write that fails halfway is not modelled. Two chunks with equal text and equal metadata get the same id (`Partitions.ChunkIdOrderInsensitive`); Chroma rejects a batch whose ids repeat, and in the model that error is reachable only through `storeFault`, while the model's store would append both entries.
- Answering.Backoff: the model computes the pause lengths but nothing sleeps; wall-clock time is not modelled.
- Text.Lower: only ASCII letters are lower-cased and other characters are left as they are, whereas Python's `str.lower` also lower-cases other letters. This changes no loader choice, since no other character lower-cases to the letters, or to the dot, of `.pdf` or `.json`.
- Fingerprint.Sha256Bytes: states the shape of a SHA-256 digest, not its value.
- Fingerprint.Sha256Text: a text is a sequence of Unicode scalar values, so a Python `str` holding a lone surrogate cannot be represented. Such a text can reach `_chunk_ids` through `json.loads` and `json.dumps(..., ensure_ascii=False)`, and `encode("utf-8")` then raises `UnicodeEncodeError`. The model has that crash only as a `storeFault` exception.
- Partitions.UnlockedInterleavingBothWrite: the store appends what is written, whereas Chroma's `add_documents` upserts by id, so nothing is claimed about what the collection holds after two unlocked writes. The lemma states only that both requests write, which is the duplicate work the lock prevents.
- Metadata values are ints and strings only, the two kinds the service itself writes.

=== FILE: answering.dfy ===
/**
  Answering one question (`answer_question` in app/rag.py) and the per-question loop of
  the `/v1/qa` handler.

  One attempt builds the chat-model client, retrieves the top-k chunks of the
  collection for the question, lays them out as a context block, sends the fixed
  system prompt plus a human message holding the context and the question to the chat
  model, and strips the reply. Building the client, the retriever with its similarity
  search, and the chat model itself are parameters (`Backend`). Each is indexed by an
  `Attempt`, naming which question of the request and which try, so the model covers
  any behaviour of the remote services: a flaky call that fails on one try and
  succeeds on the next, or one question that fails while the others succeed.
 */
module Answering {
  import opened Wrappers
  import opened Text
  import opened Documents
  import opened Partitions

  /** The answer the system prompt asks for when the context lacks the answer. */
  const Sentinel: string := "Not found in document."

  const SystemLead: string :=
    "You are a QA bot. Answer ONLY using the provided context.\nIf the context does not contain the answer, say exactly: "

  const SystemTrail: string := "\nBe concise and specific. If relevant, cite page numbers from metadata.\n"

  const Quote: string := "\""

  /** The system message, word for word. */
  const System: string := SystemLead + Quote + Sentinel + Quote + SystemTrail

  lemma QuotedMiddle(lead: string, mid: string, trail: string)
    ensures |lead| + |mid| + 1 < |lead + Quote + mid + Quote + trail|
    ensures (lead + Quote + mid + Quote + trail)[|lead| + 1..|lead| + 1 + |mid|] == mid
    ensures (lead + Quote + mid + Quote + trail)[|lead|] == '"'
    ensures (lead + Quote + mid + Quote + trail)[|lead| + 1 + |mid|] == '"'
  {
    var s := lead + Quote + mid + Quote + trail;
    assert s == lead + (Quote + mid + Quote) + trail;
    assert s == (lead + Quote + mid) + (Quote + trail);
  }

  /** The system prompt quotes the sentinel answer exactly, between double quotes. */
  lemma SystemQuotesSentinel()
    ensures |SystemLead| + |Sentinel| + 1 < |System|
    ensures System[|SystemLead| + 1..|SystemLead| + 1 + |Sentinel|] == Sentinel
    ensures System[|SystemLead|] == '"' && System[|SystemLead| + 1 + |Sentinel|] == '"'
  {
    QuotedMiddle(SystemLead, Sentinel, SystemTrail);
  }

  datatype Role = SystemRole | HumanRole

  datatype Message = Message(role: Role, content: string)

  /** `str(d.metadata)`: Python's rendering of a dict. */
  type MetaRenderer = Metadata -> string

  const MetaOpen: string := "[meta="
  const MetaClose: string := "] "

  /** One retrieved chunk as it appears in the context: its rendered metadata in
      brackets, a space, then its text. */
  function FormatDoc(renderMeta: MetaRenderer, d: Document): (line: string)
    ensures |line| == |MetaOpen| + |renderMeta(d.metadata)| + |MetaClose| + |d.content|
    ensures line[..|MetaOpen|] == MetaOpen
    ensures line[|MetaOpen|..|MetaOpen| + |renderMeta(d.metadata)|] == renderMeta(d.metadata)
    ensures line[|MetaOpen| + |renderMeta(d.metadata)|..|line| - |d.content|] == MetaClose
    ensures line[|line| - |d.content|..] == d.content
  {
    var meta := renderMeta(d.metadata);
    var line := MetaOpen + meta + MetaClose + d.content;
    assert line == (MetaOpen + meta + MetaClose) + d.content;
    assert line == (MetaOpen + meta) + (MetaClose + d.content);
    assert line == MetaOpen + (meta + MetaClose + d.content);
    line
  }

  function FormatAll(renderMeta: MetaRenderer, docs: seq<Document>): (lines: seq<string>)
    ensures |lines| == |docs|
    ensures forall i :: 0 <= i < |docs| ==> lines[i] == FormatDoc(renderMeta, docs[i])
  {
    seq(|docs|, i requires 0 <= i < |docs| => FormatDoc(renderMeta, docs[i]))
  }

  const ContextSeparator: string := "\n\n"

  /** The context block: the formatted chunks in retrieval order, separated by blank
      lines. */
  function Context(renderMeta: MetaRenderer, docs: seq<Document>): (context: string)
    ensures context == [] <==> docs == []
    ensures docs != [] ==>
      |context| + |ContextSeparator| == Offset(ContextSeparator, FormatAll(renderMeta, docs), |docs|)
  {
    var parts := FormatAll(renderMeta, docs);
    if docs == [] then ""
    else
      JoinLength(ContextSeparator, parts);
      JoinPart(ContextSeparator, parts, 0);
      Join(ContextSeparator, parts)
  }

  /** Where chunk `i` starts in the context block. */
  function ContextOffset(renderMeta: MetaRenderer, docs: seq<Document>, i: nat): nat
    requires i <= |docs|
  {
    Offset(ContextSeparator, FormatAll(renderMeta, docs), i)
  }

  /** Every retrieved chunk appears in the context, formatted, in retrieval order. */
  lemma ContextLayout(renderMeta: MetaRenderer, docs: seq<Document>, i: nat)
    requires i < |docs|
    ensures ContextOffset(renderMeta, docs, i) + |FormatDoc(renderMeta, docs[i])| <= |Context(renderMeta, docs)|
    ensures Context(renderMeta, docs)[ContextOffset(renderMeta, docs, i)..ContextOffset(renderMeta, docs, i) + |FormatDoc(renderMeta, docs[i])|]
      == FormatDoc(renderMeta, docs[i])
  {
    var parts := FormatAll(renderMeta, docs);
    assert parts[i] == FormatDoc(renderMeta, docs[i]);
    JoinPart(ContextSeparator, parts, i);
  }

  /** Consecutive chunks are separated by a blank line: the two characters before
      every chunk but the first are the separator. */
  lemma ContextSeparated(renderMeta: MetaRenderer, docs: seq<Document>, i: nat)
    requires 0 < i < |docs|
    ensures 2 <= ContextOffset(renderMeta, docs, i) <= |Context(renderMeta, docs)|
    ensures Context(renderMeta, docs)[ContextOffset(renderMeta, docs, i) - 2..ContextOffset(renderMeta, docs, i)] == ContextSeparator
  {
    JoinSeparator(ContextSeparator, FormatAll(renderMeta, docs), i);
  }

  /** Chunk `i + 1` starts right after chunk `i` and the separator: the context holds
      nothing but the chunks and the separators. */
  lemma ContextNextOffset(renderMeta: MetaRenderer, docs: seq<Document>, i: nat)
    requires i + 1 < |docs|
    ensures ContextOffset(renderMeta, docs, i + 1) ==
      ContextOffset(renderMeta, docs, i) + |FormatDoc(renderMeta, docs[i])| + |ContextSeparator|
  {
  }

  const ContextLabel: string := "Context:\n"
  const QuestionLabel: string := "\n\nQuestion: "

  /** `PROMPT.format_messages(context=context, question=question)`: the system message,
      then a human message holding the context and the question. */
  function Prompt(context: string, question: string): (msgs: seq<Message>)
    ensures |msgs| == 2
    ensures msgs[0] == Message(SystemRole, System) && msgs[1].role == HumanRole
    ensures |msgs[1].content| == |ContextLabel| + |context| + |QuestionLabel| + |question|
  {
    [Message(SystemRole, System), Message(HumanRole, ContextLabel + context + QuestionLabel + question)]
  }

  /** The human message can be read back: the context sits after its label and the
      question is what follows the question label. */
  lemma PromptReadsBack(context: string, question: string)
    ensures var text := Prompt(context, question)[1].content;
      && text[..|ContextLabel|] == ContextLabel
      && text[|ContextLabel|..|ContextLabel| + |context|] == context
      && text[|ContextLabel| + |context|..|ContextLabel| + |context| + |QuestionLabel|] == QuestionLabel
      && text[|ContextLabel| + |context| + |QuestionLabel|..] == question
  {
    var text := Prompt(context, question)[1].content;
    assert text == ContextLabel + context + QuestionLabel + question;
  }

  /** Which call to the remote services: the question's position in the request and
      the try (0, 1 or 2) of the retry loop. */
  datatype Attempt = Attempt(slot: nat, try: nat)

  /** The remote services, in the order an attempt uses them. `buildLlm` is building
      the chat model client, which may raise; `retrieve` is building the retriever and
      the similarity search over a collection's entries for the `k` nearest chunks;
      `complete` is invoking the chat model on the prompt. Each may raise. */
  datatype Backend = Backend(
    buildLlm: Attempt -> Option<Exc>,
    retrieve: (Attempt, seq<Entry>, string, nat) -> Result<seq<Document>, Exc>,
    complete: (Attempt, seq<Message>) -> Result<string, Exc>,
    renderMeta: MetaRenderer)

  /** The body of `answer_question`, once: build the chat model, retrieve, prompt,
      strip the reply. An exception of any step ends the attempt with that exception. */
  function AnswerOnce(b: Backend, at: Attempt, collection: seq<Entry>, k: nat, question: string): (r: Result<string, Exc>)
    ensures r.Success? ==> IsStripped(r.value)
  {
    match b.buildLlm(at)
    case Some(e) => Failure(e)
    case None =>
      match b.retrieve(at, collection, question, k)
      case Failure(e) => Failure(e)
      case Success(docs) =>
        match b.complete(at, Prompt(Context(b.renderMeta, docs), question))
        case Failure(e) => Failure(e)
        case Success(reply) => Success(Strip(reply))
  }

  /** An attempt fails with the exception from building the chat-model client, else
      with the retriever's, else with the chat model's, else answers with the model's reply less its surrounding whitespace; the model
      is asked about the question with exactly the retrieved chunks as context. */
  lemma AnswerOnceOutcome(b: Backend, at: Attempt, collection: seq<Entry>, k: nat, question: string)
    ensures var r := AnswerOnce(b, at, collection, k, question);
      var found := b.retrieve(at, collection, question, k);
      && (b.buildLlm(at).Some? ==> r == Failure(b.buildLlm(at).value))
      && (b.buildLlm(at).None? && found.Failure? ==> r == Failure(found.error))
      && (b.buildLlm(at).None? && found.Success? ==>
        var reply := b.complete(at, Prompt(Context(b.renderMeta, found.value), question));
        && (reply.Failure? ==> r == Failure(reply.error))
        && (reply.Success? ==> (r.Success? && IsStripped(r.value) &&
              AllSpace(LeadingSpace(reply.value)) && AllSpace(TrailingSpace(reply.value)) &&
              reply.value == LeadingSpace(reply.value) + r.value + TrailingSpace(reply.value))))
  {
    var found := b.retrieve(at, collection, question, k);
    if b.buildLlm(at).None? && found.Success? {
      var reply := b.complete(at, Prompt(Context(b.renderMeta, found.value), question));
      if reply.Success? {
        StripDecomposes(reply.value);
      }
    }
  }

  /** `stop_after_attempt(3)`. */
  const MaxAttempts: nat := 3

  /** What each of the three tries of one question would give. */
  function Tries(b: Backend, slot: nat, collection: seq<Entry>, k: nat, question: string): (outs: seq<Result<string, Exc>>)
    ensures |outs| == MaxAttempts
    ensures forall t :: 0 <= t < MaxAttempts ==> outs[t] == AnswerOnce(b, Attempt(slot, t), collection, k, question)
  {
    seq(MaxAttempts, t requires 0 <= t < MaxAttempts => AnswerOnce(b, Attempt(slot, t), collection, k, question))
  }

  /** The retry decorator from try `t` on, over the outcomes of the tries: call; on an
      exception retry while tries remain; after the last try re-raise its exception.
      Yields the outcome and the number of tries made in all. */
  function Retry(outs: seq<Result<string, Exc>>, t: nat): (r: (Result<string, Exc>, nat))
    requires t < |outs| == MaxAttempts
    ensures t < r.1 <= MaxAttempts
    ensures r.0 == outs[r.1 - 1]
    ensures forall j :: t <= j < r.1 - 1 ==> outs[j].Failure?
    ensures r.0.Failure? ==> r.1 == MaxAttempts
    decreases MaxAttempts - t
  {
    if outs[t].Success? || t + 1 == MaxAttempts then (outs[t], t + 1)
    else Retry(outs, t + 1)
  }

  /** `answer_question(vs, question)` with its retry decorator, for the question in
      position `slot`: it answers exactly when one of the three tries does, and then
      with a stripped reply; if all three fail, the third try's exception comes out. */
  function AnswerQuestion(b: Backend, slot: nat, collection: seq<Entry>, k: nat, question: string): (r: Result<string, Exc>)
    ensures r.Success? <==> exists t :: 0 <= t < MaxAttempts && AnswerOnce(b, Attempt(slot, t), collection, k, question).Success?
    ensures r.Success? ==> IsStripped(r.value)
    ensures r.Failure? ==> r == AnswerOnce(b, Attempt(slot, MaxAttempts - 1), collection, k, question)
  {
    var outs := Tries(b, slot, collection, k, question);
    Retry(outs, 0).0
  }

  /** The answer is the first successful try's: every earlier try failed. */
  lemma FirstSuccessWins(b: Backend, slot: nat, collection: seq<Entry>, k: nat, question: string, t: nat)
    requires t < MaxAttempts && AnswerOnce(b, Attempt(slot, t), collection, k, question).Success?
    requires forall j :: 0 <= j < t ==> AnswerOnce(b, Attempt(slot, j), collection, k, question).Failure?
    ensures AnswerQuestion(b, slot, collection, k, question) == AnswerOnce(b, Attempt(slot, t), collection, k, question)
  {
    var outs := Tries(b, slot, collection, k, question);
    assert Retry(outs, 0).1 - 1 == t;
  }

  /** A call that fails once and then succeeds is answered with the second reply. */
  lemma TransientFailureRecovered(b: Backend, slot: nat, collection: seq<Entry>, k: nat, question: string)
    requires AnswerOnce(b, Attempt(slot, 0), collection, k, question).Failure?
    requires AnswerOnce(b, Attempt(slot, 1), collection, k, question).Success?
    ensures AnswerQuestion(b, slot, collection, k, question) == AnswerOnce(b, Attempt(slot, 1), collection, k, question)
  {
    FirstSuccessWins(b, slot, collection, k, question, 1);
  }

  function Pow2(e: nat): (p: nat)
    ensures 1 <= p
  {
    if e == 0 then 1 else 2 * Pow2(e - 1)
  }

  /** `wait_exponential(multiplier=1, min=1, max=8)`: the pause after failed try
      number `n` (1-based) is 2^(n-1) seconds, clamped to [1, 8]. */
  function Backoff(n: nat): (w: nat)
    requires 1 <= n
    ensures 1 <= w <= 8
  {
    var raw := Pow2(n - 1);
    if raw > 8 then 8 else raw
  }

  /** The seconds slept over `tries` tries: one pause after each try but the last. */
  function TotalWait(tries: nat): nat {
    if tries <= 1 then 0 else TotalWait(tries - 1) + Backoff(tries - 1)
  }

  /** The pauses before the second and third try are 1 s and 2 s, so one question
      never sleeps more than 3 s in all, however its tries end. */
  lemma WaitBounded(b: Backend, slot: nat, collection: seq<Entry>, k: nat, question: string)
    ensures Backoff(1) == 1 && Backoff(2) == 2
    ensures TotalWait(Retry(Tries(b, slot, collection, k, question), 0).1) <= 3
    ensures TotalWait(MaxAttempts) == 3
  {
    assert Pow2(1) == 2;
    assert TotalWait(2) == 1;
    assert TotalWait(3) == 3;
  }

  /** One entry of the response. */
  datatype QAItem = QAItem(question: string, answer: string)

  const ErrorPrefix: string := "Error answering question: "

  /** The loop body of the handler for question `slot`: its answer, or, when every try
      raised, a notice naming the exception's type. */
  function AnswerItem(b: Backend, slot: nat, collection: seq<Entry>, k: nat, question: string): (item: QAItem)
    ensures item.question == question
    ensures AnswerQuestion(b, slot, collection, k, question).Success? ==>
      item.answer == AnswerQuestion(b, slot, collection, k, question).value
    ensures AnswerQuestion(b, slot, collection, k, question).Failure? ==>
      |ErrorPrefix| <= |item.answer| &&
      item.answer[..|ErrorPrefix|] == ErrorPrefix &&
      item.answer[|ErrorPrefix|..] == AnswerQuestion(b, slot, collection, k, question).error.typeName
  {
    match AnswerQuestion(b, slot, collection, k, question)
    case Success(a) => QAItem(question, a)
    case Failure(e) => QAItem(question, ErrorPrefix + e.typeName)
  }

  /** The loop over the questions, numbered from 0: one item per question, in
      question order, each the answer to that question or the notice for it; a
      question whose tries all fail does not stop the others. */
  function AnswerAll(b: Backend, collection: seq<Entry>, k: nat, questions: seq<string>): (items: seq<QAItem>)
    ensures |items| == |questions|
    ensures forall i :: 0 <= i < |questions| ==> items[i].question == questions[i]
    ensures forall i :: 0 <= i < |questions| && AnswerQuestion(b, i, collection, k, questions[i]).Success? ==>
      items[i].answer == AnswerQuestion(b, i, collection, k, questions[i]).value
    ensures forall i :: 0 <= i < |questions| && AnswerQuestion(b, i, collection, k, questions[i]).Failure? ==>
      items[i].answer == ErrorPrefix + AnswerQuestion(b, i, collection, k, questions[i]).error.typeName
  {
    seq(|questions|, i requires 0 <= i < |questions| => AnswerItem(b, i, collection, k, questions[i]))
  }

  /** Questions are answered independently: the item for question `i` depends only on
      what the services do for that question, whatever they do for the others. */
  lemma AnswerIsolation(b1: Backend, b2: Backend, collection: seq<Entry>, k: nat, questions: seq<string>, i: nat)
    requires i < |questions| && b1.renderMeta == b2.renderMeta
    requires forall t :: b1.buildLlm(Attempt(i, t)) == b2.buildLlm(Attempt(i, t))
    requires forall t, c, q, n :: b1.retrieve(Attempt(i, t), c, q, n) == b2.retrieve(Attempt(i, t), c, q, n)
    requires forall t, m :: b1.complete(Attempt(i, t), m) == b2.complete(Attempt(i, t), m)
    ensures AnswerAll(b1, collection, k, questions)[i] == AnswerAll(b2, collection, k, questions)[i]
  {
    forall t | 0 <= t < MaxAttempts
      ensures AnswerOnce(b1, Attempt(i, t), collection, k, questions[i]) == AnswerOnce(b2, Attempt(i, t), collection, k, questions[i])
    {
      var at := Attempt(i, t);
      assert b1.retrieve(at, collection, questions[i], k) == b2.retrieve(at, collection, questions[i], k);
    }
    assert Tries(b1, i, collection, k, questions[i]) == Tries(b2, i, collection, k, questions[i]);
  }
}

=== FILE: documents.dfy ===
/**
  Documents as the service passes them around (LangChain's `Document`): a text and a
  metadata dict. A Python dict keeps its insertion order and never repeats a key, so
  metadata is an insertion-ordered sequence of distinct-key items.

  `sorted(metadata.items())` puts the items in key order; since keys are distinct,
  the values never take part in the comparison. The sorted list is a canonical form:
  two dicts with the same contents sort to the same list, whatever order their keys
  were inserted in.
 */
module Documents {
  import opened Wrappers

  /** A metadata value; the service stores ints (page numbers) and strs (source kind). */
  datatype Scalar = Int(n: int) | Str(s: string)

  type Item = (string, Scalar)

  predicate DistinctKeys(items: seq<Item>) {
    forall i, j :: 0 <= i < j < |items| ==> items[i].0 != items[j].0
  }

  /** A metadata dict, in insertion order. */
  type Metadata = m: seq<Item> | DistinctKeys(m)

  datatype Document = Document(content: string, metadata: Metadata)

  /** The dict a metadata sequence denotes. */
  function AsMap(m: seq<Item>): map<string, Scalar> {
    if m == [] then map[] else AsMap(m[1..])[m[0].0 := m[0].1]
  }

  /** `d.get(key)`. */
  function Lookup(m: seq<Item>, key: string): (r: Option<Scalar>)
    ensures r.Some? <==> key in AsMap(m)
    ensures r.Some? ==> AsMap(m)[key] == r.value
  {
    if m == [] then None else if m[0].0 == key then Some(m[0].1) else Lookup(m[1..], key)
  }

  /** With distinct keys, an item is in the sequence exactly when the dict maps its
      key to its value. */
  lemma {:induction false} InAsMap(m: seq<Item>, x: Item)
    requires DistinctKeys(m)
    ensures x in m <==> (x.0 in AsMap(m) && AsMap(m)[x.0] == x.1)
    decreases |m|
  {
    if m != [] {
      assert m == [m[0]] + m[1..];
      InAsMap(m[1..], x);
    }
  }

  /** Python's `<` on `str`: lexicographic by code point, a proper prefix first. */
  predicate StrLess(a: string, b: string)
    decreases |a|
  {
    if a == [] then b != []
    else if b == [] then false
    else if a[0] != b[0] then a[0] < b[0]
    else StrLess(a[1..], b[1..])
  }

  lemma {:induction false} StrLessIrreflexive(a: string)
    ensures !StrLess(a, a)
    decreases |a|
  {
    if a != [] {
      StrLessIrreflexive(a[1..]);
    }
  }

  lemma {:induction false} StrLessTransitive(a: string, b: string, c: string)
    requires StrLess(a, b) && StrLess(b, c)
    ensures StrLess(a, c)
    decreases |a|
  {
    if a != [] && a[0] == b[0] && b[0] == c[0] {
      StrLessTransitive(a[1..], b[1..], c[1..]);
    }
  }

  lemma {:induction false} StrLessTotal(a: string, b: string)
    requires a != b
    ensures StrLess(a, b) || StrLess(b, a)
    decreases |a|
  {
    if a != [] && b != [] && a[0] == b[0] {
      assert a == [a[0]] + a[1..] && b == [b[0]] + b[1..];
      StrLessTotal(a[1..], b[1..]);
    }
  }

  lemma {:induction false} StrLessAsymmetric(a: string, b: string)
    requires StrLess(a, b)
    ensures !StrLess(b, a)
    decreases |a|
  {
    if a != [] && a[0] == b[0] {
      StrLessAsymmetric(a[1..], b[1..]);
    }
  }

  /** Strictly increasing keys, the order `sorted` leaves distinct-key items in. */
  predicate SortedByKey(items: seq<Item>) {
    forall i, j :: 0 <= i < j < |items| ==> StrLess(items[i].0, items[j].0)
  }

  /** One step of sorting: `x` placed before the first item with a greater key. */
  function Insert(x: Item, s: seq<Item>): (r: seq<Item>)
    ensures multiset(r) == multiset(s) + multiset{x}
  {
    if s == [] then [x]
    else if StrLess(x.0, s[0].0) then [x] + s
    else
      assert s == [s[0]] + s[1..];
      [s[0]] + Insert(x, s[1..])
  }

  lemma {:induction false} InsertSorted(x: Item, s: seq<Item>)
    requires SortedByKey(s)
    requires forall i :: 0 <= i < |s| ==> s[i].0 != x.0
    ensures SortedByKey(Insert(x, s))
    decreases |s|
  {
    if s == [] {
    } else if StrLess(x.0, s[0].0) {
      forall j | 0 <= j < |s| ensures StrLess(x.0, s[j].0) {
        if j > 0 {
          StrLessTransitive(x.0, s[0].0, s[j].0);
        }
      }
    } else {
      var t := Insert(x, s[1..]);
      InsertSorted(x, s[1..]);
      StrLessTotal(x.0, s[0].0);
      forall k | 0 <= k < |t| ensures StrLess(s[0].0, t[k].0) {
        assert t[k] in multiset(s[1..]) + multiset{x};
        if t[k] != x {
          assert t[k] in s[1..];
        }
      }
    }
  }

  /** `sorted(metadata.items())`: the same items, in strictly increasing key order. */
  function SortItems(m: seq<Item>): (r: seq<Item>)
    requires DistinctKeys(m)
    ensures multiset(r) == multiset(m)
    ensures SortedByKey(r)
  {
    if m == [] then []
    else
      var rest := SortItems(m[1..]);
      assert forall i :: 0 <= i < |rest| ==> rest[i].0 != m[0].0 by {
        forall i | 0 <= i < |rest| ensures rest[i].0 != m[0].0 {
          assert rest[i] in multiset(m[1..]);
          var j :| 0 <= j < |m[1..]| && m[1..][j] == rest[i];
          assert m[j + 1] == rest[i];
        }
      }
      InsertSorted(m[0], rest);
      assert m == [m[0]] + m[1..];
      Insert(m[0], rest)
  }

  lemma HeadIsMember(b: seq<Item>)
    requires b != []
    ensures b[0] in b
  {
  }

  /** A key-sorted sequence is determined by its items: two sorted sequences holding
      the same items are equal. */
  lemma {:induction false} SortedUnique(a: seq<Item>, b: seq<Item>)
    requires SortedByKey(a) && SortedByKey(b)
    requires forall x :: x in a <==> x in b
    ensures a == b
    decreases |a|
  {
    if a == [] {
      if b != [] {
        HeadIsMember(b);
        assert false;
      }
    } else {
      assert a[0] in b;
      var k :| 0 <= k < |b| && b[k] == a[0];
      assert b != [] && b[0] in a;
      var m :| 0 <= m < |a| && a[m] == b[0];
      if k > 0 {
        if m > 0 {
          StrLessAsymmetric(a[0].0, b[0].0);
        } else {
          StrLessIrreflexive(b[0].0);
        }
      }
      assert a[0] == b[0];
      forall x ensures x in a[1..] <==> x in b[1..] {
        if x in a[1..] {
          var i :| 0 <= i < |a[1..]| && a[1..][i] == x;
          assert StrLess(a[0].0, a[i + 1].0);
          StrLessIrreflexive(a[0].0);
          assert x in b;
        }
        if x in b[1..] {
          var i :| 0 <= i < |b[1..]| && b[1..][i] == x;
          assert StrLess(b[0].0, b[i + 1].0);
          StrLessIrreflexive(b[0].0);
          assert x in a;
        }
      }
      SortedUnique(a[1..], b[1..]);
      assert a == [a[0]] + a[1..] && b == [b[0]] + b[1..];
    }
  }

  /** Insertion order does not matter: metadata that denote the same dict sort to
      the same item list. */
  lemma SortItemsCanonical(m1: Metadata, m2: Metadata)
    requires AsMap(m1) == AsMap(m2)
    ensures SortItems(m1) == SortItems(m2)
  {
    var s1, s2 := SortItems(m1), SortItems(m2);
    forall x ensures x in s1 <==> x in s2 {
      assert x in s1 <==> x in multiset(m1);
      assert x in s2 <==> x in multiset(m2);
      InAsMap(m1, x);
      InAsMap(m2, x);
    }
    SortedUnique(s1, s2);
  }
}

=== FILE: fingerprint.dfy ===
/**
  Content fingerprints: SHA-256 rendered as lower-case hexadecimal, over raw bytes
  (`sha256_bytes`) or over the UTF-8 encoding of a text (`sha256_text`).

  The compression function itself is not modelled. A `Hasher` is any function from
  bytes to a 64-character lower-case hex string; everything proved here holds for
  every such function, in particular for SHA-256.
 */
module Fingerprint {
  import opened Utf8

  predicate IsLowerHex(s: string) {
    forall i :: 0 <= i < |s| ==> ('0' <= s[i] <= '9' || 'a' <= s[i] <= 'f')
  }

  /** The shape of `hashlib.sha256(data).hexdigest()`. */
  type HexDigest = s: string | |s| == 64 && IsLowerHex(s) witness seq(64, _ => '0')

  datatype Hasher = Hasher(sha256: Bytes -> HexDigest)

  /** `sha256_bytes(data)`: 64 lower-case hex characters. */
  function Sha256Bytes(h: Hasher, data: Bytes): (r: string)
    ensures |r| == 64 && IsLowerHex(r)
  {
    h.sha256(data)
  }

  /** `sha256_text(text)`: the digest of the text's UTF-8 bytes. */
  function Sha256Text(h: Hasher, text: string): (r: string)
    ensures |r| == 64 && IsLowerHex(r)
  {
    Sha256Bytes(h, Encode(text))
  }

  /** Hashing text adds no collisions of its own: two different texts with the same
      `sha256_text` have different bytes with the same `sha256_bytes`, that is, a
      collision of the underlying hash. */
  lemma TextCollisionIsByteCollision(h: Hasher, a: string, b: string)
    requires a != b && Sha256Text(h, a) == Sha256Text(h, b)
    ensures Encode(a) != Encode(b)
    ensures Sha256Bytes(h, Encode(a)) == Sha256Bytes(h, Encode(b))
  {
    if Encode(a) == Encode(b) {
      EncodeInjective(a, b);
    }
  }

  /** Python's slice `s[:n]`: the first `n` characters, or all of `s` when shorter. */
  function Truncate(s: string, n: nat): (r: string)
    ensures |r| == if n <= |s| then n else |s|
    ensures r == s[..|r|]
  {
    if n <= |s| then s[..n] else s
  }

  /** A truncated digest: `n` lower-case hex characters, the first `n` of the full
      digest. */
  lemma TruncatedDigest(d: string, n: nat)
    requires |d| == 64 && IsLowerHex(d) && n <= 64
    ensures |Truncate(d, n)| == n && IsLowerHex(Truncate(d, n))
    ensures forall i :: 0 <= i < n ==> Truncate(d, n)[i] == d[i]
  {
  }
}

=== FILE: ingestion.dfy ===
/**
  Text extraction (app/ingestion.py): PDF pages and JSON documents become
  `Document`s tagged with where they came from.

  Parsing is not modelled. A PDF arrives as what `PdfReader` extracts from each page,
  in page order (`None` when `extract_text()` gives nothing back); a JSON document
  arrives as the value `json.loads` decoded, and `json.dumps(obj, ensure_ascii=False,
  indent=2)` is a parameter. The splitter that follows extraction (`chunk_docs`) is
  likewise a parameter of the pipeline.
 */
module Ingestion {
  import opened Wrappers
  import opened Text
  import opened Utf8
  import opened JsonValue
  import opened Documents

  /** The extracted text of every page, in page order. */
  type PageTexts = seq<Option<string>>

  /** `PdfReader(io.BytesIO(pdf_bytes))` followed by `extract_text()` on each page:
      the page texts, or the exception the reader raises. */
  type PdfReader = Bytes -> Result<PageTexts, Exc>

  /** `json.dumps(obj, ensure_ascii=False, indent=2)`. */
  type JsonDumper = Json -> string

  /** `page.extract_text() or ""`. */
  function PageText(p: Option<string>): string {
    match p
    case Some(t) => t
    case None => ""
  }

  /** A page yields a document exactly when its stripped text is non-empty. */
  predicate HasText(p: Option<string>) {
    Strip(PageText(p)) != []
  }

  /** `{"page": page, "source": "pdf"}`, in that insertion order. */
  function PdfMetadata(page: int): Metadata {
    [("page", Int(page)), ("source", Str("pdf"))]
  }

  /** `{"source": "json"}`. */
  const JsonMetadata: Metadata := [("source", Str("json"))]

  /** The 1-based page number a document is tagged with, 0 when it has none. */
  function PageNumber(d: Document): int {
    match Lookup(d.metadata, "page")
    case Some(Int(n)) => n
    case _ => 0
  }

  /** The document extraction makes of page `i` (0-based): its stripped text, tagged
      with page `i + 1`. */
  function PageDocument(pages: PageTexts, i: nat): Document
    requires i < |pages|
  {
    Document(Strip(PageText(pages[i])), PdfMetadata(i + 1))
  }

  /** What the tags of a PDF document say. */
  lemma PdfTags(content: string, page: int)
    ensures PageNumber(Document(content, PdfMetadata(page))) == page
    ensures Lookup(PdfMetadata(page), "source") == Some(Str("pdf"))
  {
    assert PdfMetadata(page)[1..] == [("source", Str("pdf"))];
  }

  /** `d` is what extraction makes of a page of `pages` that has text: the page its
      tag names. */
  predicate IsPageDocument(pages: PageTexts, d: Document) {
    && 1 <= PageNumber(d) <= |pages|
    && HasText(pages[PageNumber(d) - 1])
    && d == PageDocument(pages, PageNumber(d) - 1)
  }

  lemma PageDocumentTagged(pages: PageTexts, n: nat)
    requires n < |pages| && HasText(pages[n])
    ensures PageNumber(PageDocument(pages, n)) == n + 1
    ensures IsPageDocument(pages, PageDocument(pages, n))
  {
    PdfTags(Strip(PageText(pages[n])), n + 1);
  }

  lemma PageDocumentOfPrefix(pages: PageTexts, n: nat, d: Document)
    requires n <= |pages| && IsPageDocument(pages[..n], d)
    ensures IsPageDocument(pages, d)
  {
    assert pages[..n][PageNumber(d) - 1] == pages[PageNumber(d) - 1];
  }

  /** The loop of `load_pdf_bytes` over the extracted pages: page by page, a document
      for every page with text, appended in page order. */
  function LoadPdfPages(pages: PageTexts): (docs: seq<Document>)
    ensures |docs| <= |pages|
    decreases |pages|
  {
    if pages == [] then []
    else
      var n := |pages| - 1;
      LoadPdfPages(pages[..n]) + (if HasText(pages[n]) then [PageDocument(pages, n)] else [])
  }

  /** Every emitted document is what extraction makes of the page its tag names, and
      that page has text. */
  lemma {:induction false} LoadPdfPagesSound(pages: PageTexts)
    ensures forall k :: 0 <= k < |LoadPdfPages(pages)| ==> IsPageDocument(pages, LoadPdfPages(pages)[k])
    decreases |pages|
  {
    if pages != [] {
      var n := |pages| - 1;
      var earlier := LoadPdfPages(pages[..n]);
      LoadPdfPagesSound(pages[..n]);
      LoadPdfPagesStep(pages);
      forall k | 0 <= k < |LoadPdfPages(pages)| ensures IsPageDocument(pages, LoadPdfPages(pages)[k]) {
        if k < |earlier| {
          PageDocumentOfPrefix(pages, n, earlier[k]);
        } else {
          PageDocumentTagged(pages, n);
        }
      }
    }
  }

  /** Page numbers strictly increase along the output. */
  lemma {:induction false} LoadPdfPagesOrdered(pages: PageTexts)
    ensures forall k, l :: 0 <= k < l < |LoadPdfPages(pages)| ==>
      PageNumber(LoadPdfPages(pages)[k]) < PageNumber(LoadPdfPages(pages)[l])
    decreases |pages|
  {
    if pages != [] {
      var n := |pages| - 1;
      var earlier := LoadPdfPages(pages[..n]);
      LoadPdfPagesOrdered(pages[..n]);
      LoadPdfPagesSound(pages[..n]);
      LoadPdfPagesStep(pages);
      if HasText(pages[n]) {
        PageDocumentTagged(pages, n);
        assert forall k :: 0 <= k < |earlier| ==> PageNumber(earlier[k]) <= n;
      }
    }
  }

  /** Every emitted document holds non-empty, stripped text and is tagged as coming
      from a PDF. */
  lemma PdfDocumentsShape(pages: PageTexts, k: nat)
    requires k < |LoadPdfPages(pages)|
    ensures LoadPdfPages(pages)[k].content != [] && IsStripped(LoadPdfPages(pages)[k].content)
    ensures Lookup(LoadPdfPages(pages)[k].metadata, "source") == Some(Str("pdf"))
  {
    LoadPdfPagesSound(pages);
    var d := LoadPdfPages(pages)[k];
    PdfTags(d.content, PageNumber(d));
  }

  /** One turn of the loop: the documents of all pages are those of all but the
      last, then the last page's document if it has text. */
  lemma LoadPdfPagesStep(pages: PageTexts)
    requires pages != []
    ensures LoadPdfPages(pages) == LoadPdfPages(pages[..|pages| - 1]) +
      (if HasText(pages[|pages| - 1]) then [PageDocument(pages, |pages| - 1)] else [])
  {
  }

  /** Later pages never disturb the documents of earlier ones. */
  lemma LoadPdfPagesExtends(pages: PageTexts, k: nat)
    requires pages != [] && k < |LoadPdfPages(pages[..|pages| - 1])|
    ensures k < |LoadPdfPages(pages)|
    ensures LoadPdfPages(pages)[k] == LoadPdfPages(pages[..|pages| - 1])[k]
  {
    LoadPdfPagesStep(pages);
  }

  /** The last page, when it has text, contributes the last document. */
  lemma PdfLastPageKept(pages: PageTexts)
    requires pages != [] && HasText(pages[|pages| - 1])
    ensures |LoadPdfPages(pages[..|pages| - 1])| < |LoadPdfPages(pages)|
    ensures LoadPdfPages(pages)[|LoadPdfPages(pages[..|pages| - 1])|] == PageDocument(pages, |pages| - 1)
  {
    LoadPdfPagesStep(pages);
  }

  /** A page's document does not depend on the pages after it. */
  lemma PageDocumentOfPrefixPage(pages: PageTexts, n: nat, i: nat)
    requires i < n <= |pages|
    ensures PageDocument(pages[..n], i) == PageDocument(pages, i)
  {
    assert pages[..n][i] == pages[i];
  }

  /** A document the pages before the last already produced stays where it was. */
  lemma KeptInPrefixIsKept(pages: PageTexts, i: nat, k: nat)
    requires i < |pages| - 1
    requires k < |LoadPdfPages(pages[..|pages| - 1])|
    requires LoadPdfPages(pages[..|pages| - 1])[k] == PageDocument(pages[..|pages| - 1], i)
    ensures k < |LoadPdfPages(pages)| && LoadPdfPages(pages)[k] == PageDocument(pages, i)
  {
    PageDocumentOfPrefixPage(pages, |pages| - 1, i);
    LoadPdfPagesExtends(pages, k);
  }

  /** No page with text is lost: page `i` (0-based) with non-empty stripped text has
      its document, tagged `i + 1`, in the output. */
  lemma {:induction false} PdfPageKept(pages: PageTexts, i: nat) returns (k: nat)
    requires i < |pages| && HasText(pages[i])
    ensures k < |LoadPdfPages(pages)| && LoadPdfPages(pages)[k] == PageDocument(pages, i)
    decreases |pages|, 1
  {
    if i < |pages| - 1 {
      k := PdfEarlierPageKept(pages, i);
    } else {
      PdfLastPageKept(pages);
      k := |LoadPdfPages(pages[..|pages| - 1])|;
    }
  }

  /** A page before the last keeps the index its document had without the last page. */
  lemma {:induction false} PdfEarlierPageKept(pages: PageTexts, i: nat) returns (k: nat)
    requires i < |pages| - 1 && HasText(pages[i])
    ensures k < |LoadPdfPages(pages)| && LoadPdfPages(pages)[k] == PageDocument(pages, i)
    decreases |pages|, 0
  {
    var pre := pages[..|pages| - 1];
    assert pre[i] == pages[i];
    k := PdfPageKept(pre, i);
    KeptInPrefixIsKept(pages, i, k);
  }

  /** Page `i` (0-based) has a document tagged `i + 1` exactly when its stripped text
      is non-empty: no page with text is lost and no blank page is invented. */
  lemma PdfPageCoverage(pages: PageTexts, i: nat)
    requires i < |pages|
    ensures HasText(pages[i]) <==>
      exists k :: 0 <= k < |LoadPdfPages(pages)| && PageNumber(LoadPdfPages(pages)[k]) == i + 1
  {
    LoadPdfPagesSound(pages);
    if HasText(pages[i]) {
      var k := PdfPageKept(pages, i);
      PageDocumentTagged(pages, i);
    }
  }

  /** The example of a blank middle page: text on pages 1 and 3 gives exactly two
      documents, tagged 1 and 3. */
  lemma BlankMiddlePage(a: Option<string>, blank: Option<string>, b: Option<string>)
    requires HasText(a) && !HasText(blank) && HasText(b)
    ensures |LoadPdfPages([a, blank, b])| == 2
    ensures PageNumber(LoadPdfPages([a, blank, b])[0]) == 1
    ensures PageNumber(LoadPdfPages([a, blank, b])[1]) == 3
  {
    var pages := [a, blank, b];
    LoadPdfPagesStep(pages);
    assert pages[..2] == [a, blank];
    LoadPdfPagesStep([a, blank]);
    assert [a, blank][..1] == [a];
    LoadPdfPagesStep([a]);
    assert [a][..0] == [];
    PageDocumentTagged([a], 0);
    PageDocumentTagged(pages, 2);
  }

  /** `load_pdf_bytes(pdf_bytes)`: the reader's exception propagates unchanged;
      otherwise the page filter above. */
  function LoadPdfBytes(read: PdfReader, data: Bytes): (r: Result<seq<Document>, Exc>)
    ensures read(data).Failure? ==> r == Failure(read(data).error)
    ensures read(data).Success? ==> r.Success? && |r.value| <= |read(data).value|
  {
    match read(data)
    case Failure(e) => Failure(e)
    case Success(pages) => Success(LoadPdfPages(pages))
  }

  /** `load_json_bytes(json_bytes)`: a decoding error propagates unchanged; otherwise
      exactly one document holding the re-serialised value, tagged `source = "json"`. */
  function LoadJsonBytes(parse: JsonParser, dump: JsonDumper, data: Bytes): (r: Result<seq<Document>, Exc>)
    ensures r.Success? <==> parse(data).Success?
    ensures r.Failure? ==> r.error == parse(data).error
    ensures r.Success? ==> |r.value| == 1
    ensures r.Success? ==> Lookup(r.value[0].metadata, "source") == Some(Str("json"))
    ensures r.Success? ==> PageNumber(r.value[0]) == 0
    ensures r.Success? ==> r.value[0].metadata == [("source", Str("json"))]
    ensures r.Success? ==> Lookup(r.value[0].metadata, "page") == None
    ensures r.Success? ==> r.value[0].content == dump(parse(data).value)
  {
    match parse(data)
    case Failure(e) => Failure(e)
    case Success(obj) => Success([Document(dump(obj), JsonMetadata)])
  }
}

=== FILE: json.dfy ===
/**
  A decoded JSON value, as Python's `json.loads` hands it back: `None`, a bool, a
  number, a `str`, a `list` or a `dict` (kept in the order its members were read).
  Number literals are kept as their text; the model never does arithmetic on them.
 */
module JsonValue {
  import opened Wrappers
  import opened Utf8

  datatype Json =
    | JNull
    | JBool(b: bool)
    | JNumber(literal: string)
    | JString(text: string)
    | JArray(items: seq<Json>)
    | JObject(members: seq<(string, Json)>)

  /** `json.loads(raw.decode("utf-8"))`: the decoded value, or the exception either
      step raises. Neither step is modelled. */
  type JsonParser = Bytes -> Result<Json, Exc>
}

=== FILE: partitions.dfy ===
/**
  Content-addressed ingestion (`_chunk_ids` and `upsert_documents` in app/rag.py).

  Every chunk gets an id: the first 32 hex characters of the SHA-256 of its text
  followed by its rendered, key-sorted metadata. The vector store is a map from
  collection name to the entries written into that collection, in write order.
  Ingestion into a collection is a conditional write: under a per-collection file
  lock, count the collection, and write every chunk with its id only when the count
  is 0. The lock makes count-then-write one atomic step, modelled by `Upsert`;
  `ReadCount` and `WriteIfEmpty` are its two halves, used to show what would go wrong
  without the lock. Embedding vectors and persistence to disk are not modelled.
 */
module Partitions {
  import opened Fingerprint
  import opened Documents

  /** `str(sorted(metadata.items()))`: Python's `repr` of the sorted item list. */
  type ItemsRenderer = seq<Item> -> string

  /** The text hashed for a chunk: its content, then its rendered sorted metadata. */
  function IdInput(render: ItemsRenderer, c: Document): string {
    c.content + render(SortItems(c.metadata))
  }

  /** The id `_chunk_ids` gives one chunk: 32 lower-case hex characters. */
  function ChunkId(h: Hasher, render: ItemsRenderer, c: Document): (id: string)
    ensures |id| == 32 && IsLowerHex(id)
  {
    Truncate(Sha256Text(h, IdInput(render, c)), 32)
  }

  /** The id is a prefix of the full digest of the chunk's text and metadata. */
  lemma ChunkIdIsDigestPrefix(h: Hasher, render: ItemsRenderer, c: Document)
    ensures Sha256Text(h, IdInput(render, c))[..32] == ChunkId(h, render, c)
  {
  }

  /** Ids do not depend on the order metadata keys were inserted in: chunks with the
      same text and the same metadata dict get the same id. */
  lemma ChunkIdOrderInsensitive(h: Hasher, render: ItemsRenderer, c1: Document, c2: Document)
    requires c1.content == c2.content && AsMap(c1.metadata) == AsMap(c2.metadata)
    ensures ChunkId(h, render, c1) == ChunkId(h, render, c2)
  {
    SortItemsCanonical(c1.metadata, c2.metadata);
  }

  /** `_chunk_ids(chunks)`: the loop appends one id per chunk, in chunk order. */
  function ChunkIds(h: Hasher, render: ItemsRenderer, chunks: seq<Document>): (ids: seq<string>)
    ensures |ids| == |chunks|
    ensures forall i :: 0 <= i < |chunks| ==> ids[i] == ChunkId(h, render, chunks[i])
  {
    if chunks == [] then []
    else ChunkIds(h, render, chunks[..|chunks| - 1]) + [ChunkId(h, render, chunks[|chunks| - 1])]
  }

  /** One stored item: an id and the chunk written under it. */
  datatype Entry = Entry(id: string, chunk: Document)

  /** The persisted vector store: each collection's entries in write order. */
  datatype Store = Store(collections: map<string, seq<Entry>>)

  /** What a collection holds; a collection never created holds nothing. */
  function Contents(s: Store, name: string): seq<Entry> {
    if name in s.collections then s.collections[name] else []
  }

  /** `vs._collection.count()`. */
  function Count(s: Store, name: string): nat {
    |Contents(s, name)|
  }

  /** The entries `add_documents(chunks, ids=ids)` writes: each chunk under its id. */
  function Entries(ids: seq<string>, chunks: seq<Document>): (es: seq<Entry>)
    requires |ids| == |chunks|
    ensures |es| == |chunks|
    ensures forall i :: 0 <= i < |chunks| ==> es[i].id == ids[i] && es[i].chunk == chunks[i]
  {
    seq(|chunks|, i requires 0 <= i < |chunks| => Entry(ids[i], chunks[i]))
  }

  /** Opening a collection (`get_vectorstore`) creates it when it does not exist. */
  function Open(s: Store, name: string): Store {
    Store(s.collections[name := Contents(s, name)])
  }

  /** First half of the locked step: read the collection's size. */
  function ReadCount(s: Store, name: string): (n: nat)
    ensures n == 0 <==> Contents(s, name) == []
  {
    Count(s, name)
  }

  /** Second half of the locked step: if the size read was 0, add the entries after
      what the collection holds; otherwise leave the store alone. Only the named
      collection can change. */
  function WriteIfEmpty(s: Store, name: string, observed: nat, entries: seq<Entry>): (s': Store)
    ensures observed == 0 ==> name in s'.collections && Contents(s', name) == Contents(s, name) + entries
    ensures observed != 0 ==> s' == s
    ensures s'.collections - {name} == s.collections - {name}
  {
    if observed == 0 then Store(s.collections[name := Contents(s, name) + entries]) else s
  }

  /** The whole locked step: open, count, and write only into an empty collection.
      An empty collection ends up holding exactly the entries; a non-empty one, and
      the rest of the store, are left as they were. */
  function Upsert(s: Store, name: string, entries: seq<Entry>): (s': Store)
    ensures name in s'.collections
    ensures Count(s, name) == 0 ==> s'.collections[name] == entries
    ensures Count(s, name) != 0 ==> s' == s
    ensures s'.collections - {name} == s.collections - {name}
  {
    var created := Open(s, name);
    WriteIfEmpty(created, name, ReadCount(created, name), entries)
  }

  /** `upsert_documents(collection_name, chunks)`: the chunks under their ids, written
      only into an empty collection. */
  function UpsertDocuments(h: Hasher, render: ItemsRenderer, s: Store, name: string, chunks: seq<Document>): (s': Store)
    ensures Count(s, name) == 0 ==> Contents(s', name) == Entries(ChunkIds(h, render, chunks), chunks)
    ensures Count(s, name) == 0 ==> forall i :: 0 <= i < |chunks| ==>
      Contents(s', name)[i] == Entry(ChunkId(h, render, chunks[i]), chunks[i])
    ensures s' != s ==> Count(s, name) == 0
    ensures s'.collections - {name} == s.collections - {name}
  {
    Upsert(s, name, Entries(ChunkIds(h, render, chunks), chunks))
  }

  /** Ingesting the same document twice is ingesting it once. */
  lemma UpsertIdempotent(s: Store, name: string, entries: seq<Entry>)
    ensures Upsert(Upsert(s, name, entries), name, entries) == Upsert(s, name, entries)
  {
    var s1 := Upsert(s, name, entries);
    if Count(s, name) == 0 && entries == [] {
      assert Contents(s1, name) == [];
      assert s1.collections[name := [] + []] == s1.collections;
    }
  }

  /** Once a collection holds anything it is never written again: the first write
      wins, whatever a later request brings. */
  lemma FirstWriteWins(s: Store, name: string, first: seq<Entry>, later: seq<Entry>)
    requires first != [] || Count(s, name) != 0
    ensures Upsert(Upsert(s, name, first), name, later) == Upsert(s, name, first)
  {
  }

  /** Ingestions into different collections do not interfere: they commute. */
  lemma UpsertCommutes(s: Store, n1: string, e1: seq<Entry>, n2: string, e2: seq<Entry>)
    requires n1 != n2
    ensures Upsert(Upsert(s, n1, e1), n2, e2) == Upsert(Upsert(s, n2, e2), n1, e1)
  {
    var a := Upsert(Upsert(s, n1, e1), n2, e2);
    var b := Upsert(Upsert(s, n2, e2), n1, e1);
    assert Count(Upsert(s, n1, e1), n2) == Count(s, n2);
    assert Count(Upsert(s, n2, e2), n1) == Count(s, n1);
    assert a.collections.Keys == b.collections.Keys;
    assert forall k :: k in a.collections ==> a.collections[k] == b.collections[k];
  }

  /** What the lock prevents. Without it, requests A and B for the same new document
      can both open the collection and count it before either writes: both read 0,
      so both write. Under the lock, B counts only after A's write, reads a non-zero
      count, and writes nothing. */
  lemma UnlockedInterleavingBothWrite(s: Store, name: string, entries: seq<Entry>)
    requires Count(s, name) == 0 && entries != []
    ensures
      var openedA := Open(s, name);
      var seenA := ReadCount(openedA, name);
      var openedB := Open(openedA, name);
      var seenB := ReadCount(openedB, name);
      var writtenA := WriteIfEmpty(openedB, name, seenA, entries);
      && seenA == 0 && seenB == 0
      && ReadCount(Open(writtenA, name), name) != 0
  {
    var openedA := Open(s, name);
    assert Contents(openedA, name) == [];
  }
}

=== FILE: pipeline.dfy ===
/**
  The `/v1/qa` handler (`qa` and `_check_size` in build/lib/app/main.py): validate the
  two uploads, extract and chunk the document, ingest the chunks into the document's
  collection, and answer every question.

  The checks run in a fixed order (sizes, the questions, their count, the document
  kind, extraction, chunking) and the first that fails decides the response. A
  rejection is an `HTTPException` (`Rejected`); an exception the handler does not
  catch becomes `Crashed`, which the web framework turns into a server error. The
  handler's effect on the vector store is returned next to the response.
 */
module Pipeline {
  import opened Wrappers
  import opened Text
  import opened Utf8
  import opened Fingerprint
  import opened JsonValue
  import opened Questions
  import opened Documents
  import opened Ingestion
  import opened Partitions
  import opened Answering

  /** The limits the handler reads from its settings. */
  datatype Settings = Settings(topK: nat, maxQuestions: nat, maxFileSizeBytes: nat)

  /** `TOP_K = 4`, `MAX_QUESTIONS = 50`, `MAX_FILE_SIZE_BYTES = 15_000_000`. */
  const Defaults: Settings := Settings(4, 50, 15_000_000)

  /** An uploaded file: the name the client gave it, if any, and its bytes. */
  datatype Upload = Upload(filename: Option<string>, data: Bytes)

  datatype Response =
    | Rejected(status: nat, detail: string)
    | Answered(results: seq<QAItem>)
    | Crashed(exc: Exc)

  /** `chunk_docs`: the text splitter, whose behaviour is not modelled. */
  type Splitter = seq<Document> -> seq<Document>

  /** The foreign parts of a request: hashing, JSON, PDF extraction, splitting,
      rendering metadata for ids, the vector store's own failures (opening the
      collection or embedding the chunks), and the retriever and chat model. */
  datatype Services = Services(
    hasher: Hasher,
    parseJson: JsonParser,
    dumpJson: JsonDumper,
    readPdf: PdfReader,
    split: Splitter,
    renderItems: ItemsRenderer,
    storeFault: (string, seq<Document>) -> Option<Exc>,
    backend: Backend)

  const PayloadTooLarge: nat := 413
  const BadRequest: nat := 400

  const BadKind: string := "document_file must be .pdf or .json"
  const NoText: string := "No extractable text found in document"
  const NoChunks: string := "Document produced no chunks"
  const InvalidJson: string := "Invalid JSON document: "

  /** The detail of a size rejection. */
  function SizeDetail(name: string, limit: nat): string {
    name + " exceeds max size " + Decimal(limit) + " bytes"
  }

  /** The limit can be read back from a size rejection's detail. */
  lemma SizeDetailNamesLimit(name: string, limit: nat)
    ensures var d := SizeDetail(name, limit);
      var lo := |name| + |" exceeds max size "|;
      && lo <= |d| - |" bytes"|
      && d[..|name|] == name
      && IsDigits(d[lo..|d| - |" bytes"|])
      && DigitsValue(d[lo..|d| - |" bytes"|]) == limit
  {
    var d := SizeDetail(name, limit);
    assert d == name + (" exceeds max size " + Decimal(limit) + " bytes");
    assert d == (name + " exceeds max size ") + Decimal(limit) + " bytes";
    assert d[|name| + |" exceeds max size "|..|d| - |" bytes"|] == Decimal(limit);
    DecimalRoundTrip(limit);
  }

  /** `_check_size(name, data)`: a 413 rejection exactly when the upload is strictly
      larger than the limit; an upload of exactly the limit passes. */
  function CheckSize(settings: Settings, name: string, data: Bytes): (r: Option<Response>)
    ensures r.Some? <==> |data| > settings.maxFileSizeBytes
    ensures r.Some? ==> r.value.Rejected? && r.value.status == PayloadTooLarge
    ensures r.Some? ==> r.value.detail == SizeDetail(name, settings.maxFileSizeBytes)
  {
    if |data| > settings.maxFileSizeBytes then
      Some(Rejected(PayloadTooLarge, SizeDetail(name, settings.maxFileSizeBytes)))
    else None
  }

  /** The detail of a rejection for too many questions. */
  function TooManyDetail(count: nat, limit: nat): string {
    "Too many questions: " + Decimal(count) + " (max " + Decimal(limit) + ")"
  }

  /** The loaders the handler can pick. */
  datatype DocKind = Pdf | JsonDoc | Unsupported

  /** `(document_file.filename or "").lower()`. */
  function LowerName(filename: Option<string>): string {
    match filename
    case Some(s) => Lower(s)
    case None => ""
  }

  /** The loader chosen by the lower-cased file name's suffix, `.pdf` checked first. */
  function KindOf(filename: Option<string>): (k: DocKind)
    ensures k == Pdf <==> EndsWith(LowerName(filename), ".pdf")
    ensures k == JsonDoc <==> !EndsWith(LowerName(filename), ".pdf") && EndsWith(LowerName(filename), ".json")
    ensures filename.None? ==> k == Unsupported
  {
    var name := LowerName(filename);
    if EndsWith(name, ".pdf") then Pdf
    else if EndsWith(name, ".json") then JsonDoc
    else Unsupported
  }

  /** The choice ignores letter case: names equal up to case pick the same loader. */
  lemma KindIgnoresCase(a: string, b: string)
    requires Lower(a) == Lower(b)
    ensures KindOf(Some(a)) == KindOf(Some(b))
  {
  }

  /** An upper-case suffix is recognised. */
  lemma UpperCasePdfAccepted()
    ensures KindOf(Some("Report.PDF")) == Pdf
  {
    assert Lower("Report.PDF")[6..] == ".pdf";
  }

  /** A mixed-case `.json` suffix selects the JSON loader. */
  lemma MixedCaseJsonAccepted()
    ensures KindOf(Some("data.Json")) == JsonDoc
  {
    var n := Lower("data.Json");
    assert n[5..] == "json" && n[4] == '.';
    assert n[4..] == ".json";
    assert n[5..] != ".pdf";
  }

  /** Any other suffix selects no loader. */
  lemma TextFileUnsupported()
    ensures KindOf(Some("doc.txt")) == Unsupported
  {
    var n := Lower("doc.txt");
    assert n[6] == 't';
  }

  /** `f"doc_{sha256_bytes(d_bytes)[:16]}"`: the name of the collection a document's
      chunks go to, derived from its bytes alone. */
  function CollectionName(h: Hasher, data: Bytes): (name: string)
    ensures |name| == 20
    ensures name[..4] == "doc_"
    ensures IsLowerHex(name[4..])
    ensures name[4..] == Sha256Bytes(h, data)[..16]
  {
    "doc_" + Truncate(Sha256Bytes(h, data), 16)
  }

  /** The loader step: dispatch on the file name, then load. An unsupported name and a
      JSON decoding error are rejected with 400; the PDF reader's exceptions are not
      caught by the handler. */
  function LoadDocument(svc: Services, doc: Upload): (r: Result<seq<Document>, Response>)
    ensures KindOf(doc.filename) == Unsupported ==> r == Failure(Rejected(BadRequest, BadKind))
    ensures KindOf(doc.filename) == Pdf ==>
      && (svc.readPdf(doc.data).Failure? ==> r == Failure(Crashed(svc.readPdf(doc.data).error)))
      && (svc.readPdf(doc.data).Success? ==> r == Success(LoadPdfPages(svc.readPdf(doc.data).value)))
    ensures KindOf(doc.filename) == JsonDoc ==>
      && (svc.parseJson(doc.data).Failure? ==>
            r == Failure(Rejected(BadRequest, InvalidJson + svc.parseJson(doc.data).error.message)))
      && (svc.parseJson(doc.data).Success? ==>
            r == Success(LoadJsonBytes(svc.parseJson, svc.dumpJson, doc.data).value) && |r.value| == 1)
    ensures r.Success? ==> KindOf(doc.filename) != Unsupported
    ensures r.Failure? && r.error.Rejected? ==> r.error.status == BadRequest
    ensures r.Failure? && r.error.Crashed? ==> KindOf(doc.filename) == Pdf
    ensures r.Failure? ==> r.error.Rejected? || r.error.Crashed?
  {
    match KindOf(doc.filename)
    case Pdf =>
      (match LoadPdfBytes(svc.readPdf, doc.data)
       case Failure(e) => Failure(Crashed(e))
       case Success(docs) => Success(docs))
    case JsonDoc =>
      (match LoadJsonBytes(svc.parseJson, svc.dumpJson, doc.data)
       case Failure(e) => Failure(Rejected(BadRequest, InvalidJson + e.message))
       case Success(docs) => Success(docs))
    case Unsupported => Failure(Rejected(BadRequest, BadKind))
  }

  /** Everything after the questions are accepted: load, chunk, ingest, answer. An
      empty document or an empty chunk list is rejected before the store is touched. */
  function Serve(svc: Services, settings: Settings, store: Store, questions: seq<string>, doc: Upload): (out: (Response, Store))
    ensures LoadDocument(svc, doc).Failure? ==> out == (LoadDocument(svc, doc).error, store)
    ensures LoadDocument(svc, doc) == Success([]) ==> out == (Rejected(BadRequest, NoText), store)
    ensures (LoadDocument(svc, doc).Success? && LoadDocument(svc, doc).value != [] &&
      svc.split(LoadDocument(svc, doc).value) == []) ==> out == (Rejected(BadRequest, NoChunks), store)
    ensures (LoadDocument(svc, doc).Success? && LoadDocument(svc, doc).value != [] &&
      svc.split(LoadDocument(svc, doc).value) != []) ==>
      var chunks := svc.split(LoadDocument(svc, doc).value);
      var fault := svc.storeFault(CollectionName(svc.hasher, doc.data), chunks);
      && (fault.Some? ==> out == (Crashed(fault.value), store))
      && (fault.None? ==> out.0.Answered? && |out.0.results| == |questions|)
    ensures !out.0.Answered? ==> out.1 == store
    ensures out.0.Rejected? ==> out.0.status == BadRequest
    ensures out.0.Crashed? ==> KindOf(doc.filename) != Unsupported
    ensures out.0.Answered? ==>
      var name := CollectionName(svc.hasher, doc.data);
      && LoadDocument(svc, doc).Success?
      && out.1 == UpsertDocuments(svc.hasher, svc.renderItems, store, name, svc.split(LoadDocument(svc, doc).value))
      && Count(out.1, name) > 0
      && out.0.results == AnswerAll(svc.backend, Contents(out.1, name), settings.topK, questions)
  {
    match LoadDocument(svc, doc)
    case Failure(resp) => (resp, store)
    case Success(docs) =>
      if docs == [] then (Rejected(BadRequest, NoText), store)
      else
        var chunks := svc.split(docs);
        if chunks == [] then (Rejected(BadRequest, NoChunks), store)
        else
          var name := CollectionName(svc.hasher, doc.data);
          match svc.storeFault(name, chunks)
          case Some(e) => (Crashed(e), store)
          case None =>
            var stored := UpsertDocuments(svc.hasher, svc.renderItems, store, name, chunks);
            (Answered(AnswerAll(svc.backend, Contents(stored, name), settings.topK, questions)), stored)
  }

  /** The questions step: parse, then bound the count. A parse error is rejected with
      its own message. */
  function AcceptQuestions(svc: Services, settings: Settings, raw: Bytes): (r: Result<seq<string>, Response>)
    ensures ParseQuestions(svc.parseJson, raw).Failure? ==>
      r == Failure(Rejected(BadRequest, ParseQuestions(svc.parseJson, raw).error.message))
    ensures ParseQuestions(svc.parseJson, raw).Success? ==>
      var qs := ParseQuestions(svc.parseJson, raw).value;
      && (|qs| > settings.maxQuestions ==> r == Failure(Rejected(BadRequest, TooManyDetail(|qs|, settings.maxQuestions))))
      && (|qs| <= settings.maxQuestions ==> r == Success(qs))
    ensures r.Success? ==> 0 < |r.value| <= settings.maxQuestions
  {
    match ParseQuestions(svc.parseJson, raw)
    case Failure(e) => Failure(Rejected(BadRequest, e.message))
    case Success(qs) =>
      if |qs| > settings.maxQuestions then Failure(Rejected(BadRequest, TooManyDetail(|qs|, settings.maxQuestions)))
      else Success(qs)
  }

  /** `qa(questions_file, document_file)`, with the vector store before and after:
      413 exactly when an upload is too large; only an answered request writes to the
      store, and then only to the document's collection, which holds chunks
      afterwards; the answers are one per accepted question, in order. */
  function Qa(svc: Services, settings: Settings, store: Store, questionsFile: Upload, documentFile: Upload): (out: (Response, Store))
    ensures (out.0.Rejected? && out.0.status == PayloadTooLarge) <==>
      (|questionsFile.data| > settings.maxFileSizeBytes || |documentFile.data| > settings.maxFileSizeBytes)
    ensures !out.0.Answered? ==> out.1 == store
    ensures out.1.collections - {CollectionName(svc.hasher, documentFile.data)} ==
      store.collections - {CollectionName(svc.hasher, documentFile.data)}
    ensures out.0.Answered? ==>
      && AcceptQuestions(svc, settings, questionsFile.data).Success?
      && |out.0.results| == |AcceptQuestions(svc, settings, questionsFile.data).value|
      && (forall i :: 0 <= i < |out.0.results| ==>
            out.0.results[i].question == AcceptQuestions(svc, settings, questionsFile.data).value[i])
      && KindOf(documentFile.filename) != Unsupported
      && Count(out.1, CollectionName(svc.hasher, documentFile.data)) > 0
    ensures
      && |questionsFile.data| <= settings.maxFileSizeBytes && |documentFile.data| <= settings.maxFileSizeBytes
      && AcceptQuestions(svc, settings, questionsFile.data).Success?
      && LoadDocument(svc, documentFile).Success? && LoadDocument(svc, documentFile).value != []
      && svc.split(LoadDocument(svc, documentFile).value) != []
      && svc.storeFault(CollectionName(svc.hasher, documentFile.data), svc.split(LoadDocument(svc, documentFile).value)).None?
      ==> out.0.Answered?
  {
    match CheckSize(settings, "questions_file", questionsFile.data)
    case Some(resp) => (resp, store)
    case None =>
      match CheckSize(settings, "document_file", documentFile.data)
      case Some(resp) => (resp, store)
      case None =>
        match AcceptQuestions(svc, settings, questionsFile.data)
        case Failure(resp) => (resp, store)
        case Success(questions) => Serve(svc, settings, store, questions, documentFile)
  }

  /** The size checks come first, questions before document, whatever else the
      request holds; an upload of exactly the limit is not rejected for its size. */
  lemma SizeCheckedFirst(svc: Services, settings: Settings, store: Store, q: Upload, d: Upload)
    ensures |q.data| > settings.maxFileSizeBytes ==>
      Qa(svc, settings, store, q, d) == (Rejected(PayloadTooLarge, SizeDetail("questions_file", settings.maxFileSizeBytes)), store)
    ensures |q.data| <= settings.maxFileSizeBytes < |d.data| ==>
      Qa(svc, settings, store, q, d) == (Rejected(PayloadTooLarge, SizeDetail("document_file", settings.maxFileSizeBytes)), store)
    ensures |q.data| <= settings.maxFileSizeBytes && |d.data| <= settings.maxFileSizeBytes ==>
      Qa(svc, settings, store, q, d) ==
        match AcceptQuestions(svc, settings, q.data)
        case Failure(resp) => (resp, store)
        case Success(questions) => Serve(svc, settings, store, questions, d)
  {
  }

  /** Every rejection is a 400 or a 413; a request only fails with an exception after
      its questions and its document kind were accepted. */
  lemma QaOutcomes(svc: Services, settings: Settings, store: Store, q: Upload, d: Upload)
    ensures Qa(svc, settings, store, q, d).0.Rejected? ==>
      Qa(svc, settings, store, q, d).0.status in {BadRequest, PayloadTooLarge}
    ensures Qa(svc, settings, store, q, d).0.Crashed? ==>
      AcceptQuestions(svc, settings, q.data).Success? && KindOf(d.filename) != Unsupported
  {
  }

  /** Once both uploads fit, the questions decide before the document: a malformed
      or over-long question list is rejected whatever the document is. */
  lemma QuestionsCheckedBeforeDocument(svc: Services, settings: Settings, store: Store, q: Upload, d1: Upload, d2: Upload)
    requires |q.data| <= settings.maxFileSizeBytes
    requires |d1.data| <= settings.maxFileSizeBytes && |d2.data| <= settings.maxFileSizeBytes
    requires AcceptQuestions(svc, settings, q.data).Failure?
    ensures Qa(svc, settings, store, q, d1) == Qa(svc, settings, store, q, d2)
    ensures Qa(svc, settings, store, q, d1) == (AcceptQuestions(svc, settings, q.data).error, store)
  {
  }

  /** Exactly `maxQuestions` questions are served; one more is rejected. */
  lemma QuestionLimitBoundary(svc: Services, settings: Settings, store: Store, q: Upload, d: Upload)
    requires |q.data| <= settings.maxFileSizeBytes && |d.data| <= settings.maxFileSizeBytes
    requires ParseQuestions(svc.parseJson, q.data).Success?
    ensures var n := |ParseQuestions(svc.parseJson, q.data).value|;
      && (n == settings.maxQuestions ==>
            Qa(svc, settings, store, q, d) == Serve(svc, settings, store, ParseQuestions(svc.parseJson, q.data).value, d))
      && (n == settings.maxQuestions + 1 ==>
            Qa(svc, settings, store, q, d) == (Rejected(BadRequest, TooManyDetail(n, settings.maxQuestions)), store))
  {
  }

  /** A wrong document type is a 400, as for `doc.txt` with one valid question. */
  lemma WrongDocTypeRejected(svc: Services, store: Store, q: Upload)
    requires svc.parseJson(q.data) == Success(JArray([JString("q1")]))
    requires |q.data| <= Defaults.maxFileSizeBytes
    ensures Qa(svc, Defaults, store, q, Upload(Some("doc.txt"), [110, 111, 112, 101])) ==
      (Rejected(BadRequest, BadKind), store)
  {
    StripPlainQ1();
    CleanSingle("q1");
    assert Texts([JString("q1")]) == ["q1"];
    assert ParseQuestions(svc.parseJson, q.data) == Success(["q1"]);
    assert AcceptQuestions(svc, Defaults, q.data) == Success(["q1"]);
    TextFileUnsupported();
  }

  lemma StripPlainQ1()
    ensures Strip("q1") == "q1"
  {
    StripUnique([], "q1", []);
    assert [] + "q1" + [] == "q1";
  }

  /** A PDF the reader cannot open is not caught: the request fails with the reader's
      exception and the store is untouched. */
  lemma UnreadablePdfCrashes(svc: Services, settings: Settings, store: Store, q: Upload, d: Upload)
    requires |q.data| <= settings.maxFileSizeBytes && |d.data| <= settings.maxFileSizeBytes
    requires AcceptQuestions(svc, settings, q.data).Success?
    requires KindOf(d.filename) == Pdf && svc.readPdf(d.data).Failure?
    ensures Qa(svc, settings, store, q, d) == (Crashed(svc.readPdf(d.data).error), store)
  {
  }

  /** Sending a document again changes nothing in the store: once its collection
      holds chunks, which an answered request leaves it holding, a request with the
      same document bytes, whatever its questions, leaves the store as it was. */
  lemma RepeatRequestKeepsStore(svc: Services, settings: Settings, store: Store, q: Upload, d: Upload)
    requires Count(store, CollectionName(svc.hasher, d.data)) > 0
    ensures Qa(svc, settings, store, q, d).1 == store
  {
  }
}

=== FILE: questions.dfy ===
/**
  Validation of the uploaded question list (`parse_questions_json` in app/utils.py).

  The upload is decoded and parsed as JSON by a `JsonParser` (UTF-8 decoding and
  `json.loads` are not modelled); the result must be an array whose every element is
  a string. Each entry is stripped, blank entries are dropped, and a list that ends
  up empty is rejected.
 */
module Questions {
  import opened Wrappers
  import opened Text
  import opened Utf8
  import opened JsonValue

  const NotArrayOfStrings := "questions.json must be a JSON array of strings"
  const NoQuestions := "questions.json must contain at least one non-empty question"

  predicate AllStrings(items: seq<Json>) {
    forall i :: 0 <= i < |items| ==> items[i].JString?
  }

  /** `isinstance(obj, list) and all(isinstance(x, str) for x in obj)`. */
  predicate IsStringArray(v: Json) {
    v.JArray? && AllStrings(v.items)
  }

  /** The Python strings inside an array of JSON strings. */
  function Texts(items: seq<Json>): (qs: seq<string>)
    requires AllStrings(items)
    ensures |qs| == |items| && forall i :: 0 <= i < |items| ==> items[i] == JString(qs[i])
  {
    seq(|items|, i requires 0 <= i < |items| => items[i].text)
  }

  /** Every entry is blank: nothing survives cleaning. */
  predicate AllBlank(qs: seq<string>) {
    forall i :: 0 <= i < |qs| ==> AllSpace(qs[i])
  }

  /** `[q.strip() for q in qs if q.strip()]`. */
  function Clean(qs: seq<string>): (r: seq<string>)
    ensures |r| <= |qs|
    ensures forall k :: 0 <= k < |r| ==> r[k] != [] && IsStripped(r[k])
    ensures r == [] <==> AllBlank(qs)
  {
    if qs == [] then []
    else
      var q := Strip(qs[0]);
      var rest := Clean(qs[1..]);
      if q != [] then [q] + rest else rest
  }

  /** Cleaning one entry keeps it, stripped, exactly when it is not blank. */
  lemma CleanSingle(q: string)
    ensures Strip(q) != [] ==> Clean([q]) == [Strip(q)]
    ensures Strip(q) == [] ==> Clean([q]) == []
  {
    assert [q][1..] == [];
  }

  /** Cleaning works entry by entry: the cleaned list is the cleaned parts in their
      original order. With `CleanSingle` this pins down `Clean` completely. */
  lemma {:induction false} CleanConcat(a: seq<string>, b: seq<string>)
    ensures Clean(a + b) == Clean(a) + Clean(b)
    decreases |a|
  {
    if a == [] {
      assert a + b == b;
    } else {
      assert (a + b)[0] == a[0];
      assert (a + b)[1..] == a[1..] + b;
      CleanConcat(a[1..], b);
    }
  }

  /** `parse_questions_json(raw)`. */
  function ParseQuestions(parse: JsonParser, raw: Bytes): (r: Result<seq<string>, Exc>)
    ensures parse(raw).Failure? ==> r == Failure(parse(raw).error)
    ensures parse(raw).Success? && !IsStringArray(parse(raw).value) ==>
      r == Failure(Exc("ValueError", NotArrayOfStrings))
    ensures parse(raw).Success? && IsStringArray(parse(raw).value) ==>
      (r.Success? <==> !AllBlank(Texts(parse(raw).value.items)))
    ensures parse(raw).Success? && IsStringArray(parse(raw).value) && r.Failure? ==>
      r.error == Exc("ValueError", NoQuestions)
    ensures r.Success? ==> parse(raw).Success? && IsStringArray(parse(raw).value)
    ensures r.Success? ==> r.value == Clean(Texts(parse(raw).value.items))
    ensures r.Success? ==> 0 < |r.value| <= |parse(raw).value.items|
    ensures r.Success? ==> forall k :: 0 <= k < |r.value| ==> r.value[k] != [] && IsStripped(r.value[k])
  {
    match parse(raw)
    case Failure(e) => Failure(e)
    case Success(obj) =>
      if !IsStringArray(obj) then Failure(Exc("ValueError", NotArrayOfStrings))
      else
        var cleaned := Clean(Texts(obj.items));
        if cleaned == [] then Failure(Exc("ValueError", NoQuestions)) else Success(cleaned)
  }

  /** The accepted example: `["  q1  ", "q2", "   "]` gives `["q1", "q2"]`. */
  lemma StripPaddedQ1()
    ensures Strip("  q1  ") == "q1"
  {
    StripUnique("  ", "q1", "  ");
    assert "  " + "q1" + "  " == "  q1  ";
  }

  lemma CleanKeepKeepDrop(a: string, b: string, c: string)
    requires Strip(a) != [] && Strip(b) != [] && Strip(c) == []
    ensures Clean([a, b, c]) == [Strip(a), Strip(b)]
  {
    assert [a, b, c][1..] == [b, c];
    assert [b, c][1..] == [c];
    assert [c][1..] == [];
  }

  lemma StripPlainQ2()
    ensures Strip("q2") == "q2"
  {
    StripUnique("", "q2", "");
    assert "" + "q2" + "" == "q2";
  }

  lemma StripBlank()
    ensures Strip("   ") == []
  {
    assert AllSpace("   ");
  }

  lemma CleanExample()
    ensures Clean(["  q1  ", "q2", "   "]) == ["q1", "q2"]
  {
    StripPaddedQ1();
    StripPlainQ2();
    StripBlank();
    CleanKeepKeepDrop("  q1  ", "q2", "   ");
  }

  /** A JSON object is not a list: `{"q": "no"}` is rejected as having the wrong shape. */
  lemma ObjectRejected(parse: JsonParser, raw: Bytes)
    requires parse(raw) == Success(JObject([("q", JString("no"))]))
    ensures ParseQuestions(parse, raw) == Failure(Exc("ValueError", NotArrayOfStrings))
  {
  }

  /** The rejected example: `["   "]` has no question left. */
  lemma BlankOnlyRejected(parse: JsonParser, raw: Bytes)
    requires parse(raw) == Success(JArray([JString("   ")]))
    ensures ParseQuestions(parse, raw) == Failure(Exc("ValueError", NoQuestions))
  {
    assert Texts([JString("   ")]) == ["   "];
    assert AllBlank(["   "]);
  }
}

=== FILE: text.dfy ===
/**
  The handful of Python `str` operations the service's decisions rest on:
  `strip()`, `"sep".join(...)`, `lower()`, `endswith(...)` and the decimal
  rendering of an integer inside an f-string.
 */
module Text {

  /** Python's `str.isspace` for one character: exactly the code points that
      `str.strip()` with no argument removes. */
  predicate IsSpace(c: char) {
    || ('\U{0009}' <= c <= '\U{000D}')
    || ('\U{001C}' <= c <= '\U{0020}')
    || c == '\U{0085}' || c == '\U{00A0}' || c == '\U{1680}'
    || ('\U{2000}' <= c <= '\U{200A}')
    || c == '\U{2028}' || c == '\U{2029}' || c == '\U{202F}'
    || c == '\U{205F}' || c == '\U{3000}'
  }

  predicate AllSpace(s: string) {
    forall i :: 0 <= i < |s| ==> IsSpace(s[i])
  }

  /** No whitespace at either end: the shape of every `str.strip()` result. */
  predicate IsStripped(s: string) {
    s == [] || (!IsSpace(s[0]) && !IsSpace(s[|s| - 1]))
  }

  /** Drops leading whitespace. */
  function TrimStart(s: string): (r: string)
    ensures |r| <= |s|
  {
    if s != [] && IsSpace(s[0]) then TrimStart(s[1..]) else s
  }

  /** Drops trailing whitespace. */
  function TrimEnd(s: string): (r: string)
    ensures |r| <= |s|
  {
    if s != [] && IsSpace(s[|s| - 1]) then TrimEnd(s[..|s| - 1]) else s
  }

  /** `TrimStart` returns the suffix that starts at the first non-space character. */
  lemma {:induction false} TrimStartSpec(s: string)
    ensures TrimStart(s) == s[|s| - |TrimStart(s)|..]
    ensures AllSpace(s[..|s| - |TrimStart(s)|])
    ensures TrimStart(s) == [] || !IsSpace(TrimStart(s)[0])
    decreases |s|
  {
    if s != [] && IsSpace(s[0]) {
      TrimStartSpec(s[1..]);
      var k := |s| - |TrimStart(s)|;
      assert s[..k] == [s[0]] + s[1..][..k - 1];
    }
  }

  /** `TrimEnd` returns the prefix that ends at the last non-space character. */
  lemma {:induction false} TrimEndSpec(s: string)
    ensures TrimEnd(s) == s[..|TrimEnd(s)|]
    ensures AllSpace(s[|TrimEnd(s)|..])
    ensures TrimEnd(s) == [] || !IsSpace(TrimEnd(s)[|TrimEnd(s)| - 1])
    decreases |s|
  {
    if s != [] && IsSpace(s[|s| - 1]) {
      var p := s[..|s| - 1];
      TrimEndSpec(p);
      var k := |TrimEnd(s)|;
      assert s[k..] == p[k..] + [s[|s| - 1]];
    }
  }

  /** Python's `s.strip()`. */
  function Strip(s: string): (r: string)
    ensures IsStripped(r)
    ensures |r| <= |s|
    ensures r == [] <==> AllSpace(s)
  {
    var t := TrimStart(s);
    var r := TrimEnd(t);
    TrimStartSpec(s);
    TrimEndSpec(t);
    assert r != [] ==> r[0] == t[0];
    assert r == [] ==> AllSpace(s) by {
      if r == [] {
        assert t[|r|..] == t;
        assert t == [];
        assert s[..|s| - |t|] == s;
      }
    }
    r
  }

  /** The whitespace `Strip` removes from the front of `s`. */
  function LeadingSpace(s: string): string {
    s[..|s| - |TrimStart(s)|]
  }

  /** The whitespace `Strip` removes from the back of `s`. */
  function TrailingSpace(s: string): string {
    TrimStart(s)[|Strip(s)|..]
  }

  lemma SplitAt(x: string, m: nat)
    requires m <= |x|
    ensures x == x[..m] + x[m..]
  {
  }

  lemma Concat3(a: string, b: string, c: string, x: string, y: string)
    requires x == a + y && y == b + c
    ensures x == a + b + c
  {
  }

  /** `s` is `Strip(s)` with whitespace around it. */
  lemma StripDecomposes(s: string)
    ensures AllSpace(LeadingSpace(s)) && AllSpace(TrailingSpace(s))
    ensures s == LeadingSpace(s) + Strip(s) + TrailingSpace(s)
  {
    var t := TrimStart(s);
    var r := Strip(s);
    assert r == TrimEnd(t);
    TrimStartSpec(s);
    TrimEndSpec(t);
    SplitAt(s, |s| - |t|);
    SplitAt(t, |r|);
    Concat3(LeadingSpace(s), r, TrailingSpace(s), s, t);
  }

  lemma {:induction false} TrimStartSkips(a: string, x: string)
    requires AllSpace(a)
    requires x == [] || !IsSpace(x[0])
    ensures TrimStart(a + x) == x
    decreases |a|
  {
    if a == [] {
      assert a + x == x;
    } else {
      assert (a + x)[1..] == a[1..] + x;
      TrimStartSkips(a[1..], x);
    }
  }

  lemma {:induction false} TrimEndSkips(x: string, b: string)
    requires AllSpace(b)
    requires x == [] || !IsSpace(x[|x| - 1])
    ensures TrimEnd(x + b) == x
    decreases |b|
  {
    if b == [] {
      assert x + b == x;
    } else {
      var xb := x + b;
      assert xb[..|xb| - 1] == x + b[..|b| - 1];
      assert IsSpace(xb[|xb| - 1]);
      TrimEndSkips(x, b[..|b| - 1]);
    }
  }

  /** `Strip` is characterised by its decomposition: whatever stripped middle sits
      between two runs of whitespace is what `Strip` returns. */
  lemma {:induction false} StripUnique(a: string, m: string, b: string)
    requires AllSpace(a) && AllSpace(b) && IsStripped(m)
    ensures Strip(a + m + b) == m
  {
    if m == [] {
      var s := a + m + b;
      forall i | 0 <= i < |s| ensures IsSpace(s[i]) {
        if i < |a| { assert s[i] == a[i]; } else { assert s[i] == b[i - |a|]; }
      }
    } else {
      assert a + m + b == a + (m + b);
      TrimStartSkips(a, m + b);
      TrimEndSkips(m, b);
    }
  }

  /** Stripping twice is stripping once. */
  lemma StripIdempotent(s: string)
    ensures Strip(Strip(s)) == Strip(s)
  {
    StripUnique([], Strip(s), []);
    assert [] + Strip(s) + [] == Strip(s);
  }

  /** Python's `sep.join(parts)`, built the way the string grows: every part after
      the first is preceded by one `sep`. */
  function Join(sep: string, parts: seq<string>): string
    decreases |parts|
  {
    if |parts| == 0 then ""
    else if |parts| == 1 then parts[0]
    else Join(sep, parts[..|parts| - 1]) + sep + parts[|parts| - 1]
  }

  /** The position at which `parts[i]` begins inside `Join(sep, parts)`: every earlier
      part and one separator after each. */
  function Offset(sep: string, parts: seq<string>, i: nat): nat
    requires i <= |parts|
  {
    if i == 0 then 0 else Offset(sep, parts, i - 1) + |parts[i - 1]| + |sep|
  }

  lemma {:induction false} OffsetOfPrefix(sep: string, parts: seq<string>, k: nat, i: nat)
    requires i <= k <= |parts|
    ensures Offset(sep, parts[..k], i) == Offset(sep, parts, i)
  {
    if i > 0 {
      OffsetOfPrefix(sep, parts, k, i - 1);
      assert parts[..k][i - 1] == parts[i - 1];
    }
  }

  /** Length of a join: all parts plus one separator between each neighbouring pair. */
  lemma {:induction false} JoinLength(sep: string, parts: seq<string>)
    requires |parts| > 0
    ensures |Join(sep, parts)| + |sep| == Offset(sep, parts, |parts|)
    decreases |parts|
  {
    if |parts| > 1 {
      var n := |parts|;
      JoinLength(sep, parts[..n - 1]);
      OffsetOfPrefix(sep, parts, n - 1, n - 1);
    }
  }

  lemma SliceOfRight(x: string, y: string, lo: nat, hi: nat)
    requires lo <= hi <= |y|
    ensures (x + y)[|x| + lo..|x| + hi] == y[lo..hi]
  {
  }

  /** A join of two or more parts is the join of all but the last, then a separator
      and the last part. */
  lemma JoinSnoc(sep: string, parts: seq<string>)
    requires |parts| > 1
    ensures Join(sep, parts) == Join(sep, parts[..|parts| - 1]) + (sep + parts[|parts| - 1])
  {
    var j := Join(sep, parts[..|parts| - 1]);
    assert j + sep + parts[|parts| - 1] == j + (sep + parts[|parts| - 1]);
  }

  /** The last part closes a join. */
  lemma JoinPartLast(sep: string, parts: seq<string>)
    requires |parts| > 1
    ensures Offset(sep, parts, |parts| - 1) + |parts[|parts| - 1]| == |Join(sep, parts)|
    ensures Join(sep, parts)[Offset(sep, parts, |parts| - 1)..|Join(sep, parts)|] == parts[|parts| - 1]
  {
    var n := |parts|;
    var pre := parts[..n - 1];
    var j := Join(sep, pre);
    var rest := sep + parts[n - 1];
    JoinSnoc(sep, parts);
    JoinLength(sep, pre);
    OffsetOfPrefix(sep, parts, n - 1, n - 1);
    SliceOfRight(j, rest, |sep|, |rest|);
    assert rest[|sep|..] == parts[n - 1];
  }

  lemma SliceOfPrefix(x: string, m: nat, lo: nat, hi: nat)
    requires lo <= hi <= m <= |x|
    ensures x[..m][lo..hi] == x[lo..hi]
  {
  }

  /** A join begins with the join of all but its last part. */
  lemma JoinPrefix(sep: string, parts: seq<string>)
    requires |parts| > 1
    ensures |Join(sep, parts[..|parts| - 1])| <= |Join(sep, parts)|
    ensures Join(sep, parts)[..|Join(sep, parts[..|parts| - 1])|] == Join(sep, parts[..|parts| - 1])
  {
    JoinSnoc(sep, parts);
  }

  /** Layout of a join, parts: part `i` sits at `Offset(sep, parts, i)`, so the parts
      appear whole and in their original order. */
  lemma {:induction false} JoinPart(sep: string, parts: seq<string>, i: nat)
    requires i < |parts|
    ensures Offset(sep, parts, i) + |parts[i]| <= |Join(sep, parts)|
    ensures Join(sep, parts)[Offset(sep, parts, i)..Offset(sep, parts, i) + |parts[i]|] == parts[i]
    decreases |parts|
  {
    var n := |parts|;
    if n == 1 {
    } else if i == n - 1 {
      JoinPartLast(sep, parts);
    } else {
      var pre := parts[..n - 1];
      var o := Offset(sep, parts, i);
      JoinPart(sep, pre, i);
      OffsetOfPrefix(sep, parts, n - 1, i);
      assert pre[i] == parts[i];
      JoinPrefix(sep, parts);
      var whole, j := Join(sep, parts), Join(sep, pre);
      SliceOfPrefix(whole, |j|, o, o + |parts[i]|);
    }
  }

  /** Layout of a join, separators: exactly one `sep` sits immediately before every
      part but the first. */
  lemma {:induction false} JoinSeparator(sep: string, parts: seq<string>, i: nat)
    requires 0 < i < |parts|
    ensures |sep| <= Offset(sep, parts, i) <= |Join(sep, parts)|
    ensures Join(sep, parts)[Offset(sep, parts, i) - |sep|..Offset(sep, parts, i)] == sep
    decreases |parts|
  {
    var n := |parts|;
    if i == n - 1 {
      JoinSeparatorLast(sep, parts);
    } else {
      var pre := parts[..n - 1];
      var o := Offset(sep, parts, i);
      JoinSeparator(sep, pre, i);
      OffsetOfPrefix(sep, parts, n - 1, i);
      JoinPrefix(sep, parts);
      SliceOfPrefix(Join(sep, parts), |Join(sep, pre)|, o - |sep|, o);
    }
  }

  /** The separator before the last part. */
  lemma JoinSeparatorLast(sep: string, parts: seq<string>)
    requires |parts| > 1
    ensures |sep| <= Offset(sep, parts, |parts| - 1) <= |Join(sep, parts)|
    ensures Join(sep, parts)[Offset(sep, parts, |parts| - 1) - |sep|..Offset(sep, parts, |parts| - 1)] == sep
  {
    var n := |parts|;
    var pre := parts[..n - 1];
    var j := Join(sep, pre);
    var rest := sep + parts[n - 1];
    JoinSnoc(sep, parts);
    JoinLength(sep, pre);
    OffsetOfPrefix(sep, parts, n - 1, n - 1);
    SliceOfRight(j, rest, 0, |sep|);
    assert rest[..|sep|] == sep;
  }

  /** ASCII case folding of one character, as Python's `lower()` does for ASCII. */
  function LowerChar(c: char): char {
    if 'A' <= c <= 'Z' then (c as int + 32) as char else c
  }

  /** Python's `s.lower()` restricted to ASCII letters. */
  function Lower(s: string): (r: string)
    ensures |r| == |s|
    ensures forall i :: 0 <= i < |s| ==> !('A' <= r[i] <= 'Z')
    ensures forall i :: 0 <= i < |s| ==> (r[i] == s[i] || ('A' <= s[i] <= 'Z' && r[i] as int == s[i] as int + 32))
  {
    seq(|s|, i requires 0 <= i < |s| => LowerChar(s[i]))
  }

  /** Python's `s.endswith(suffix)`. */
  predicate EndsWith(s: string, suffix: string) {
    |suffix| <= |s| && s[|s| - |suffix|..] == suffix
  }

  predicate IsDigits(s: string) {
    forall i :: 0 <= i < |s| ==> '0' <= s[i] <= '9'
  }

  function DigitChar(d: nat): (c: char)
    requires d < 10
    ensures '0' <= c <= '9' && c as int - '0' as int == d
  {
    ('0' as int + d) as char
  }

  /** How an f-string renders a non-negative integer: decimal digits with no
      leading zero. */
  function Decimal(n: nat): (r: string)
    ensures 1 <= |r| && IsDigits(r)
    ensures r[0] == '0' ==> n == 0 && |r| == 1
    decreases n
  {
    if n < 10 then [DigitChar(n)] else Decimal(n / 10) + [DigitChar(n % 10)]
  }

  /** The number a string of decimal digits denotes. */
  function DigitsValue(s: string): nat
    requires IsDigits(s)
  {
    if s == [] then 0 else DigitsValue(s[..|s| - 1]) * 10 + (s[|s| - 1] as int - '0' as int)
  }

  /** Reading back a rendered number gives the number. */
  lemma {:induction false} DecimalRoundTrip(n: nat)
    ensures DigitsValue(Decimal(n)) == n
    decreases n
  {
    if n >= 10 {
      var s := Decimal(n);
      assert s[..|s| - 1] == Decimal(n / 10);
      DecimalRoundTrip(n / 10);
    }
  }
}

=== FILE: utf8.dfy ===
/**
  Bytes and the UTF-8 encoding of text (RFC 3629), which is how Python's
  `str.encode("utf-8")` turns a string into the bytes that get hashed.
  A string here is a sequence of Unicode scalar values. A Python `str` may also hold
  a lone surrogate, which `encode("utf-8")` rejects; such strings are outside the model.
 */
module Utf8 {
  import opened Wrappers

  type Byte = b: int | 0 <= b < 256
  type Bytes = seq<Byte>

  predicate IsContinuation(b: Byte) {
    0x80 <= b < 0xC0
  }

  /** The one-to-four byte sequence for one scalar value. */
  function EncodeChar(c: char): (bs: Bytes)
    ensures 1 <= |bs| <= 4
    ensures |bs| == 1 <==> c as int < 0x80
    ensures forall i :: 1 <= i < |bs| ==> IsContinuation(bs[i])
  {
    var v := c as int;
    if v < 0x80 then [v]
    else if v < 0x800 then [0xC0 + v / 64, 0x80 + v % 64]
    else if v < 0x10000 then [0xE0 + v / 64 / 64, 0x80 + v / 64 % 64, 0x80 + v % 64]
    else [0xF0 + v / 64 / 64 / 64, 0x80 + v / 64 / 64 % 64, 0x80 + v / 64 % 64, 0x80 + v % 64]
  }

  /** Python's `s.encode("utf-8")`. */
  function Encode(s: string): (bs: Bytes)
    ensures |s| <= |bs| <= 4 * |s|
  {
    if s == [] then [] else EncodeChar(s[0]) + Encode(s[1..])
  }

  predicate IsScalar(v: int) {
    (0 <= v < 0xD800) || (0xE000 <= v < 0x110000)
  }

  /** Strict decoding of the first scalar value, rejecting overlong forms, surrogates
      and values above U+10FFFF as Python's strict decoder does. Yields the value and
      the number of bytes it took. */
  function DecodeFirst(bs: Bytes): (r: Option<(char, nat)>)
    requires |bs| > 0
    ensures r.Some? ==> 1 <= r.value.1 <= |bs|
  {
    var b0: int := bs[0];
    if b0 < 0x80 then Some((b0 as char, 1))
    else if 0xC2 <= b0 < 0xE0 && |bs| >= 2 && IsContinuation(bs[1]) then
      var v := (b0 - 0xC0) * 64 + (bs[1] as int - 0x80);
      Some((v as char, 2))
    else if 0xE0 <= b0 < 0xF0 && |bs| >= 3 && IsContinuation(bs[1]) && IsContinuation(bs[2]) then
      var v := (b0 - 0xE0) * 4096 + (bs[1] as int - 0x80) * 64 + (bs[2] as int - 0x80);
      if 0x800 <= v && IsScalar(v) then Some((v as char, 3)) else None
    else if 0xF0 <= b0 < 0xF5 && |bs| >= 4 && IsContinuation(bs[1]) && IsContinuation(bs[2]) && IsContinuation(bs[3]) then
      var v := (b0 - 0xF0) * 262144 + (bs[1] as int - 0x80) * 4096 + (bs[2] as int - 0x80) * 64 + (bs[3] as int - 0x80);
      if 0x10000 <= v && IsScalar(v) then Some((v as char, 4)) else None
    else None
  }

  /** Python's `bs.decode("utf-8")`: `None` where Python raises `UnicodeDecodeError`. */
  function Decode(bs: Bytes): Option<string>
    decreases |bs|
  {
    if bs == [] then Some([])
    else match DecodeFirst(bs)
      case None => None
      case Some((c, n)) =>
        match Decode(bs[n..])
        case None => None
        case Some(rest) => Some([c] + rest)
  }

  lemma DecodeTwo(v: int, rest: Bytes)
    requires 0x80 <= v < 0x800
    ensures var bs: Bytes := [0xC0 + v / 64, 0x80 + v % 64] + rest;
      DecodeFirst(bs) == Some((v as char, 2))
  {
    var bs: Bytes := [0xC0 + v / 64, 0x80 + v % 64] + rest;
    assert bs[0] == 0xC0 + v / 64 && bs[1] == 0x80 + v % 64;
    assert (v / 64) * 64 + v % 64 == v;
  }

  lemma DecodeThree(v: int, rest: Bytes)
    requires 0x800 <= v < 0x10000 && IsScalar(v)
    ensures var bs: Bytes := [0xE0 + v / 64 / 64, 0x80 + v / 64 % 64, 0x80 + v % 64] + rest;
      DecodeFirst(bs) == Some((v as char, 3))
  {
    var q1 := v / 64;
    var q2 := q1 / 64;
    assert v == q1 * 64 + v % 64 && q1 == q2 * 64 + q1 % 64;
    var bs: Bytes := [0xE0 + q2, 0x80 + q1 % 64, 0x80 + v % 64] + rest;
    assert bs[0] == 0xE0 + q2 && bs[1] == 0x80 + q1 % 64 && bs[2] == 0x80 + v % 64;
  }

  lemma DecodeFour(v: int, rest: Bytes)
    requires 0x10000 <= v < 0x110000
    ensures var bs: Bytes := [0xF0 + v / 64 / 64 / 64, 0x80 + v / 64 / 64 % 64, 0x80 + v / 64 % 64, 0x80 + v % 64] + rest;
      DecodeFirst(bs) == Some((v as char, 4))
  {
    var q1 := v / 64;
    var q2 := q1 / 64;
    var q3 := q2 / 64;
    assert v == q1 * 64 + v % 64 && q1 == q2 * 64 + q1 % 64 && q2 == q3 * 64 + q2 % 64;
    var bs: Bytes := [0xF0 + q3, 0x80 + q2 % 64, 0x80 + q1 % 64, 0x80 + v % 64] + rest;
    assert bs[0] == 0xF0 + q3 && bs[1] == 0x80 + q2 % 64;
    assert bs[2] == 0x80 + q1 % 64 && bs[3] == 0x80 + v % 64;
  }

  lemma DecodeFirstOfEncodeChar(c: char, rest: Bytes)
    ensures DecodeFirst(EncodeChar(c) + rest) == Some((c, |EncodeChar(c)|))
  {
    var v := c as int;
    if v < 0x80 {
    } else if v < 0x800 {
      DecodeTwo(v, rest);
    } else if v < 0x10000 {
      DecodeThree(v, rest);
    } else {
      DecodeFour(v, rest);
    }
  }

  /** Decoding undoes encoding; in particular distinct strings have distinct bytes. */
  lemma {:induction false} DecodeEncode(s: string)
    ensures Decode(Encode(s)) == Some(s)
    decreases |s|
  {
    if s != [] {
      var e := EncodeChar(s[0]);
      var bs := Encode(s);
      assert bs == e + Encode(s[1..]);
      DecodeFirstOfEncodeChar(s[0], Encode(s[1..]));
      assert bs[|e|..] == Encode(s[1..]);
      DecodeEncode(s[1..]);
      assert [s[0]] + s[1..] == s;
    }
  }

  lemma EncodeInjective(a: string, b: string)
    requires Encode(a) == Encode(b)
    ensures a == b
  {
    DecodeEncode(a);
    DecodeEncode(b);
  }
}

=== FILE: wrappers.dfy ===
/**
  Failure-carrying datatypes shared by the whole model.

  Python code in the modelled service signals failure by raising exceptions; the model
  returns a `Result` instead, whose error side is an `Exc` recording what the service
  itself looks at: the exception's class name (`type(e).__name__`) and its `str(e)`.
 */
module Wrappers {

  datatype Option<+T> = None | Some(value: T)

  datatype Result<+R, +E> = Success(value: R) | Failure(error: E)

  /** A raised Python exception: its class name and its message. */
  datatype Exc = Exc(typeName: string, message: string)
}
